=== FILE: README.md ===
# rednote-api core in Dafny

This project models the core of `rednote-api`, a small HTTP service that takes
the link of a Xiaohongshu (RedNote) note. It gates the link with a URL check,
downloads the note page and reads the page's metadata out of it with regular
expressions. It answers with a JSON record: note id, author nickname, title,
description, keywords, video duration, engagement counters, image URLs and
video download links.

The model covers four areas:

- **The URL gate.** `is_valid_rednote_url` is modelled as `UrlValidator`. A
  functional checker, `IsValidRednoteUrl`, is proved equivalent to a
  declarative reading of its pattern, `MatchesUrlPattern`.
- **The two regex helpers.** `capture_single` and `capture_multi` are
  modelled as `Capture`. Each pattern the scraper uses has its own module:
  - `MetaPattern` for `(?is)<meta[^>]*name="X"[^>]*content="(.*?)"`;
  - `TitlePattern` for `(?is)<title>(.*?)</title>`.

  Each of these modules has a search function and a leftmost-first
  specification. The specification reads like a backtracking engine: first
  the leftmost start, then the greedy `[^>]*` runs as long as possible, then
  the lazy `(.*?)` as short as possible. The search function is proved to
  return exactly the match the specification picks, and to return nothing
  exactly when there is no match.
- **Field extraction.** The extraction half of `scrape` is
  `Scraper.Extract`, with the record types `RednoteResult`, `Engagement` and
  `Download`. Its independent description is `Page` and `PageExtract`: on a
  page made of well-formed meta tags, title elements and plain text, each
  field is the trimmed text of the first piece its pattern names, and
  `images` lists every `og:image` content in page order.
- **The HTTP layer.** `process_url`, the GET and POST handlers, the JSON
  envelope and the `PORT` default are modelled as `Server`.

Case-insensitive matching (`(?i)`) compares each character with the
pattern's lower-case letter. It accepts the letter itself and its ASCII upper
case. It also accepts the two non-ASCII characters whose simple case folding
lands on an ASCII letter: KELVIN SIGN for `k` and LATIN SMALL LETTER LONG S
for `s`. `trim()` and `\s` use the Unicode White_Space property.

The model follows the code where the two differ in a detail:

- The URL pattern's optional group is `(.*?)?`. Any text without a line
  feed can therefore sit between `://` and the domain, not only a
  subdomain. So `https://evil.example/xiaohongshu.com/a` is accepted
  (`UrlValidator.AcceptsDomainInPath`).
- The greedy second `[^>]*` of the meta pattern picks the last `content="`
  before the tag's `>`. If an attribute value itself ends in `content=`, the
  lazy capture can therefore run past the tag's `>` up to the next `"` on
  the page. The page theorems apply only to tags whose name and content
  contain none of `"`, `=`, `<` and `>`.

## Model

| member | source | states |
|---|---|---|
| Text.Trim | src/scraper.rs:36 | the result is the slice of the input that starts after the leading whitespace; only whitespace follows it; it neither starts nor ends with whitespace |
| Text.TrimUnique | src/scraper.rs:36 | any slice with only whitespace around it that neither starts nor ends with whitespace is the trim of the whole text |
| Text.TrimIdempotent | src/scraper.rs:36 | trimming twice is trimming once |
| Text.TrimOfTrimmed | src/scraper.rs:36 | trimming leaves text that neither starts nor ends with whitespace unchanged |
| Text.AfterLast | src/scraper.rs:103 | `split(c).next_back()` is a suffix without `c`; it is the whole text or is preceded by `c` |
| Text.AfterLastUnique | src/scraper.rs:103 | a text written as `pre + c + r` with no `c` in `r` splits to `r` |
| Text.BeforeFirst | src/scraper.rs:114 | `split(sep).next()` is a prefix with no occurrence of `sep` starting inside it; it is the whole text or is followed by `sep` |
| Text.BeforeFirstUnique | src/scraper.rs:114 | a text written as `r + sep + t` with no earlier occurrence of `sep` splits to `r` |
| MetaPattern.FindMatchIsLeftmostFirst | src/scraper.rs:89-92 | the meta-pattern search returns exactly the leftmost-first match: least start, latest `name="X"`, latest `content="`, first closing quote; it returns none exactly when no match starts at or after the search point |
| MetaPattern.LeftmostFirstUnique | src/scraper.rs:89-92 | at most one match has leftmost-first priority |
| MetaPattern.FindMatch | src/scraper.rs:89-92 | the meta-pattern search reports a match starting at or after the search point, whose capture begins after its start and whose closing quote lies inside the text; `FindMatchIsLeftmostFirst` shows it is the one the engine picks |
| MetaPattern.CaptureHasNoQuote | src/scraper.rs:89-92 | the lazy group of a reported match holds no `"` |
| TitlePattern.FindMatchIsLeftmostFirst | src/scraper.rs:88 | the title search returns the leftmost `<title>` closed by the first `</title>` after it, or none exactly when no match starts at or after the search point |
| TitlePattern.FindMatch | src/scraper.rs:88 | the title search reports a match starting at or after the search point whose capture begins after `<title>` and whose `</title>` fits inside the text; `FindMatchIsLeftmostFirst` shows it is the one the engine picks |
| TitlePattern.CaptureHasNoClose | src/scraper.rs:88 | the captured title contains no `</title>` in any letter case |
| Capture.FindSpan | src/scraper.rs:31-35 | the first match of a pattern from a search point lies inside the text, is the one the engine reports, and is missing exactly when there is no match |
| Capture.FindSpanSkips | src/scraper.rs:40-47 | resuming the search across a stretch where no match starts finds the same match |
| Capture.CaptureSingle | src/scraper.rs:31-38 | `capture_single` is "" when nothing matches and otherwise the trimmed capture of the match the engine reports; the result is trimmed |
| Capture.AllSpans | src/scraper.rs:43 | the matches `captures_iter` visits lie inside the text and start at or after the search point; they are the engine's successive matches, each search resuming at the previous match's end (stated exactly by `AllSpansAt` and `AllSpansExhaustive`) |
| Capture.AllSpansAt | src/scraper.rs:40-47 | the k-th match `captures_iter` visits is the one the engine reports when it resumes right after the previous match |
| Capture.AllSpansExhaustive | src/scraper.rs:40-47 | after the last visited match no further match exists |
| Capture.CaptureMulti | src/scraper.rs:40-47 | `capture_multi` has one trimmed capture per visited match, in order |
| Capture.CaptureMultiStartsWithSingle | src/scraper.rs:31-47 | `capture_multi` is empty exactly when nothing matches; otherwise its first entry is `capture_single` |
| Capture.MetaCapturesHaveNoQuote | src/scraper.rs:40-47 | no meta capture, single or multi, contains `"` |
| Capture.TitleCaptureHasNoClose | src/scraper.rs:88 | the captured title holds no `</title>` |
| Capture.NoTagNoCapture | src/scraper.rs:31-47 | on a text without `<` both helpers return empty results |
| MetaTags.TagIsLeftmostFirst | src/scraper.rs:89-92 | a tag `<meta name="Y" content="C">` whose name equals the pattern's up to case, with no match before it, is the reported match; its capture is `C` |
| MetaTags.TagAttributesFixed | src/scraper.rs:89-92 | a match starting at such a tag uses the tag's own `name=` and `content=` attributes, and needs the tag's name to equal the pattern's up to case |
| MetaTags.TagNoOtherMatch | src/scraper.rs:89-92 | no match starts inside a tag, nor at a tag with a different name |
| Page.CapturesFrom | src/scraper.rs:40-47 | from any piece on, the matches the engine visits carry, one for one, the trimmed texts of the pieces the pattern names |
| Page.CaptureMultiOfPage | src/scraper.rs:40-47 | on a page of well-formed pieces `capture_multi` equals the trimmed texts of the named pieces in page order, repeats kept |
| Page.CaptureSingleOfPage | src/scraper.rs:31-38 | on such a page `capture_single` is the trimmed text of the first named piece, or "" |
| PageExtract.ExtractOfPage | src/scraper.rs:88-160 | `scrape`'s extraction of such a page is the record read off its pieces, field by field |
| PageExtract.NotePageExample | src/scraper.rs:101-120 | on a page with `og:title` "Alice - My Trip", an `og:url` ending in `/64abc123` and images a, b, a: the nickname is "Alice", the note id is "64abc123", the images are [a, b, a] and the title is empty |
| Scraper.NoteId | src/scraper.rs:103 | the note id is a suffix of `og:url` without `/`, preceded by `/` unless it is all of `og:url` |
| Scraper.NoteIdAfterLastSlash | src/scraper.rs:103 | `pre + "/" + id` with no `/` in `id` gives `id` |
| Scraper.NoteIdEdgeCases | src/scraper.rs:103 | an `og:url` without `/` is its own id; an empty one, or one ending in `/`, gives "" |
| Scraper.Nickname | src/scraper.rs:114 | the nickname is the prefix of `og:title` before the first " - ", or all of it when there is none |
| Scraper.NicknameBeforeSeparator | src/scraper.rs:114 | `name + " - " + rest`, with no earlier " - ", gives `name` |
| Scraper.NicknameWithoutSeparator | src/scraper.rs:114 | a title without " - " is its own nickname |
| Scraper.Downloads | src/scraper.rs:137-144 | at most one download, with quality "Original" and the video URL; none exactly when the video URL is empty |
| Scraper.Extract | src/scraper.rs:88-160 | the extraction's note id has no `/`; title, description, keywords and duration are trimmed; there is one image per `og:image` match and at most one download |
| Scraper.ExtractDownloads | src/scraper.rs:137-144 | the record's downloads are `[Original, og:video]` when the `og:video` capture is non-empty, and [] otherwise |
| Scraper.ExtractImages | src/scraper.rs:116-120 | the k-th image is the trimmed capture of the k-th `og:image` match, each match resuming after the previous one |
| Scraper.ExtractWithoutMatches | src/scraper.rs:88-160 | a page on which none of the eleven patterns matches yields the all-empty record |
| Scraper.ExtractWithoutTags | src/scraper.rs:88-160 | in particular a page without `<` yields the all-empty record |
| Scraper.ExtractFieldsHaveNoQuote | src/scraper.rs:88-160 | no meta-derived field, image or download URL contains `"` |
| Scraper.ExtractTitleHasNoClose | src/scraper.rs:88 | the title contains no `</title>` |
| Scraper.ExtractFieldsAreTrimmed | src/scraper.rs:88-160 | every captured field and image is trimmed, and every download URL is trimmed and non-empty |
| Scraper.Scrape | src/scraper.rs:49-83 | `scrape` fails exactly when the fetch fails, with the matching "Build client error: ", "Request failed: " or "Read HTML failed: " message; otherwise it returns the extraction of the fetched page |
| UrlValidator.ValidIffMatchesPattern | src/scraper.rs:163-167 | the checker accepts exactly the URLs that split into http(s) scheme, `://`, a prefix without line feed, `xhslink.com` or `xiaohongshu.com` up to case, `/`, and a non-empty whitespace-free rest |
| UrlValidator.IsValidRednoteUrl | src/scraper.rs:163-167 | an accepted URL begins with an `http://` or `https://` scheme up to case and is at least 20 characters long, the length of `http://xhslink.com/x` |
| UrlValidator.ValidImpliesPattern | src/scraper.rs:163-167 | every accepted URL has that shape |
| UrlValidator.PatternImpliesValid | src/scraper.rs:163-167 | every URL of that shape is accepted |
| UrlValidator.NoPathNoHost | src/scraper.rs:164 | with no `/` after a domain position the search for a domain fails |
| UrlValidator.AcceptsMainDomain | src/scraper.rs:164 | `https://xiaohongshu.com/x` is accepted |
| UrlValidator.AcceptsSubdomain | src/scraper.rs:164 | `https://www.xhslink.com/y` is accepted |
| UrlValidator.AcceptsUpperCase | src/scraper.rs:164 | `HTTP://XHSLINK.COM/abc` is accepted |
| UrlValidator.AcceptsDomainInPath | src/scraper.rs:164 | `https://evil.example/xiaohongshu.com/a` is accepted |
| UrlValidator.RejectedExamples | src/scraper.rs:164 | `ftp://xiaohongshu.com/abc` and `https://xiaohongshu.com/` are rejected |
| Server.ProcessUrl | src/main.rs:48-92 | the status is 200 or 400; an invalid URL gets 400 with "Invalid Xiaohongshu URL"; 200 exactly when the URL is valid and the fetch succeeds; the body's `status` flag says whether it is 200 |
| Server.HandleGet | src/main.rs:40-42 | the GET handler answers 400 with "Invalid Xiaohongshu URL" for a URL the gate refuses, and 200 exactly when the URL is valid and the fetch succeeds |
| Server.HandlePost | src/main.rs:44-46 | the POST handler answers the same way for the URL in its JSON body |
| Server.ErrorBody | src/main.rs:82-91 | every failure body carries `status: false` and the message as `error` |
| Server.SuccessBody | src/main.rs:63-67 | the success body carries `status: true` next to exactly the record's serialized keys |
| Server.InvalidUrlIsNotFetched | src/main.rs:49-60 | for an invalid URL the answer does not depend on the fetch |
| Server.ScrapeErrorIsReported | src/main.rs:82-91 | a failed fetch answers 400 with `status: false` and `scrape`'s message as `error` |
| Server.SuccessCarriesResult | src/main.rs:62-81 | a successful fetch answers 200 with `status: true`, and the body reads back as the extracted record |
| Server.StringsRoundTrip | src/scraper.rs:27 | a serialized string list reads back unchanged |
| Server.ResultFields | src/scraper.rs:17-29 | a record serializes to one key per field, `noteId`, `nickname`, `title`, `desc`, `keywords`, `duration`, `engagement`, `images` and `downloads`, none of them `status` |
| Server.DownloadsRoundTrip | src/scraper.rs:11-15 | a serialized download list reads back unchanged |
| Server.ResultRoundTrip | src/scraper.rs:17-29 | the serialized record, with the id under "noteId", reads back unchanged, with or without the added "status" key |
| Server.GetAndPostAgree | src/main.rs:40-46 | GET with `?url=` and POST with `{"url": …}` give the same answer for the same URL |
| Server.Port | src/main.rs:115-118 | the port is at most 65535 and is 8080 when `PORT` is unset |
| Server.ParseU16 | src/main.rs:117 | `parse::<u16>` accepts only a non-empty text of ASCII digits, optionally after one leading `+`; the result is the digits' decimal value, at most 65535 |
| Server.ParseDigits | src/main.rs:117 | every non-empty digit text, leading zeros allowed, parses to its value when that is at most 65535 and fails otherwise, and a leading `+` changes nothing |
| Server.PortFromDigits | src/main.rs:115-118 | `PORT` set to such a text, with or without `+`, gives its value when it fits in 16 bits and 8080 otherwise |
| Server.PortWithLeadingZeros | src/main.rs:115-118 | `PORT=08080` gives 8080 and `PORT=+0080` gives 80 |
| Server.DecimalRoundTrip | src/main.rs:115-118 | the decimal digits of n parse back to n |
| Server.PortFromDecimal | src/main.rs:115-118 | `PORT` set to a decimal n ≤ 65535, with or without a leading `+`, gives n |
| Server.PortOutOfRange | src/main.rs:115-118 | a decimal above 65535 falls back to 8080 |
| Server.PortUnparseable | src/main.rs:115-118 | an empty value, a lone `+`, and values starting with `-` or a space fall back to 8080 |

## Left out

- The HTTP client (src/scraper.rs:50-83) is left out: headers, redirects, timeout and decompression are network I/O. The fetch is a function parameter returning the page or one of three failures.
- The server's runtime (src/main.rs:22-38, 95-111, 119-134) is left out: socket binding, the logging middleware, CORS, the docs and `openapi.json` routes and the 404 fallback are I/O without logic to prove.
- The request extractors `Query<Params>` and `Json<Params>` (src/main.rs:40, 44) are left out: axum rejects a request without `url`, or a POST body that is not JSON of that shape, before `process_url` runs. The handlers are modelled from an already extracted `Params`.
- JSON text is left out. Responses are JSON value trees, so key order, pretty printing and escaping are not modelled.
- The fallbacks `unwrap_or(json!({}))` and "json serialize failed" (src/main.rs:64, 72-78) are not modelled, because serializing a record of strings cannot fail.
- Each `Regex::new(..).unwrap()` is not modelled: the patterns are constant and valid, so the unwrap cannot panic.
- Byte offsets are not modelled. Rust strings are UTF-8 and the regex engine works on bytes, while the model works on characters; a match and its capture are the same either way.
- `env::var` failing on a non-Unicode `PORT` is treated like an unset variable. Both fall back to 8080.
- A meta pattern whose name has upper-case letters or regex metacharacters is not modelled: `Capture.Meta` reads the name as a lower-case literal, which every name the scraper uses is.
- Page.CaptureMultiOfPage: only covers pages of well-formed pieces whose tag names and contents contain none of `"`, `=`, `<` and `>`. Other pages are still modelled by `Capture.CaptureMulti` and the leftmost-first lemmas, but have no piece-level description.
- Page.CaptureSingleOfPage: the same restriction to well-formed pieces.
- PageExtract.ExtractOfPage: the same restriction to well-formed pieces.

=== FILE: capture.dfy ===
/**
 `capture_single` and `capture_multi` of the scraper, for the two pattern
 families it uses: the first match's trimmed capture, and every
 non-overlapping match's trimmed capture in document order.
 */
module Capture {
  import opened Common
  import opened Text
  import MetaPattern
  import TitlePattern

  /** The patterns the scraper compiles: `<title>(.*?)</title>`, and
      `<meta[^>]*name="X"[^>]*content="(.*?)"` for a meta name `X`.
      The name is read as a literal written in lower case, the way every
      name the scraper asks for is written (`og:title`, `description`,
      `og:xhs:note_like`, ...): the page's characters are folded onto it
      with `FoldEq`. A name with upper-case letters or regex
      metacharacters would need its own folding and is not modelled. */
  datatype Pattern = Title | Meta(name: string)

  /** One match of a pattern, with where it begins and ends and where its
      capture group begins and ends. */
  datatype Span = MetaSpan(meta: MetaPattern.MetaMatch) | TitleSpan(title: TitlePattern.TitleMatch) {
    function Start(): nat {
      match this
      case MetaSpan(m) => m.start
      case TitleSpan(t) => t.start
    }
    function CapStart(): nat {
      match this
      case MetaSpan(m) => m.CaptureStart()
      case TitleSpan(t) => t.CaptureStart()
    }
    function CapEnd(): nat {
      match this
      case MetaSpan(m) => m.close
      case TitleSpan(t) => t.close
    }
    function End(): nat {
      match this
      case MetaSpan(m) => m.close + 1
      case TitleSpan(t) => t.close + |TitlePattern.TitleClose|
    }
    predicate Within(s: string) {
      Start() <= CapStart() <= CapEnd() < End() <= |s|
    }
  }

  /** `sp` is the match the regex engine reports for `pat` when searching
      `s` from `from`. */
  ghost predicate Reports(s: string, pat: Pattern, from: int, sp: Span) {
    match sp
    case TitleSpan(t) => pat.Title? && TitlePattern.IsLeftmostFirst(s, from, t)
    case MetaSpan(m) => pat.Meta? && MetaPattern.IsLeftmostFirst(s, MetaPattern.NameAttr(pat.name), from, m)
  }

  /** The regex finds no match for `pat` at or after `from`. */
  ghost predicate NoMatch(s: string, pat: Pattern, from: int) {
    match pat
    case Title => TitlePattern.NoMatchFrom(s, from)
    case Meta(name) => MetaPattern.NoMatchFrom(s, MetaPattern.NameAttr(name), from)
  }

  /** The first match of `pat` at or after `from`. */
  function FindSpan(s: string, pat: Pattern, from: nat): (r: Option<Span>)
    requires from <= |s|
    ensures r.Some? ==> r.value.Within(s) && from <= r.value.Start()
    ensures r.Some? ==> Reports(s, pat, from, r.value)
    ensures r.None? <==> NoMatch(s, pat, from)
  {
    match pat
    case Title =>
      TitlePattern.FindMatchIsLeftmostFirst(s, from);
      (match TitlePattern.FindMatch(s, from)
       case None => None
       case Some(m) => Some(TitleSpan(m)))
    case Meta(name) =>
      MetaPattern.FindMatchIsLeftmostFirst(s, MetaPattern.NameAttr(name), from);
      (match MetaPattern.FindMatch(s, MetaPattern.NameAttr(name), from)
       case None => None
       case Some(m) => Some(MetaSpan(m)))
  }

  /** Where the search for the `k`-th match begins: at `from` for the first,
      right after the previous match for the others. */
  function SearchStart(from: nat, spans: seq<Span>, k: nat): nat
    requires k <= |spans|
  {
    if k == 0 then from else spans[k - 1].End()
  }

  /** The matches `captures_iter` visits, from `from` on: the first match,
      then the matches after its end. */
  function AllSpans(s: string, pat: Pattern, from: nat): (r: seq<Span>)
    requires from <= |s|
    ensures forall k :: 0 <= k < |r| ==> r[k].Within(s) && from <= r[k].Start()
    decreases |s| - from
  {
    match FindSpan(s, pat, from)
    case None => []
    case Some(sp) =>
      var rest := AllSpans(s, pat, sp.End());
      assert forall k :: 0 < k <= |rest| ==> ([sp] + rest)[k] == rest[k - 1];
      [sp] + rest
  }

  /** The `k`-th span `AllSpans` lists is the match the engine reports when
      it resumes right after the span before it. */
  lemma {:induction false} AllSpansAt(s: string, pat: Pattern, from: nat, k: nat)
    requires from <= |s|
    requires k < |AllSpans(s, pat, from)|
    ensures var r := AllSpans(s, pat, from);
            Reports(s, pat, SearchStart(from, r, k), r[k])
    decreases k
  {
    var sp := FindSpan(s, pat, from).value;
    var rest := AllSpans(s, pat, sp.End());
    if k > 0 {
      AllSpansAt(s, pat, sp.End(), k - 1);
      SearchStartCons(from, sp, rest, k);
    }
  }

  /** Searching the spans after the first one resumes at its end. */
  lemma SearchStartCons(from: nat, sp: Span, rest: seq<Span>, k: nat)
    requires 0 < k <= |rest|
    ensures SearchStart(from, [sp] + rest, k) == SearchStart(sp.End(), rest, k - 1)
    ensures ([sp] + rest)[k] == rest[k - 1]
  {
  }

  /** Once the list `AllSpans` ends, no match is left. */
  lemma {:induction false} AllSpansExhaustive(s: string, pat: Pattern, from: nat)
    requires from <= |s|
    ensures var r := AllSpans(s, pat, from);
            NoMatch(s, pat, SearchStart(from, r, |r|))
    decreases |s| - from
  {
    match FindSpan(s, pat, from)
    case None =>
    case Some(sp) =>
      var rest := AllSpans(s, pat, sp.End());
      AllSpansExhaustive(s, pat, sp.End());
      var r := AllSpans(s, pat, from);
      assert r == [sp] + rest;
      var e := SearchStart(sp.End(), rest, |rest|);
      assert SearchStart(from, r, |r|) == e;
  }

  /** The text a span's capture group holds. */
  function Captured(s: string, sp: Span): string
    requires sp.Within(s)
  {
    s[sp.CapStart() .. sp.CapEnd()]
  }

  /** `capture_single`: the trimmed capture of the leftmost-first match, or
      `""` when the pattern does not match. */
  function CaptureSingle(html: string, pat: Pattern): (r: string)
    ensures NoMatch(html, pat, 0) ==> r == ""
    ensures forall sp :: Reports(html, pat, 0, sp) && sp.Within(html) ==> r == Trim(Captured(html, sp))
    ensures IsTrimmed(r)
  {
    match FindSpan(html, pat, 0)
    case None => ""
    case Some(sp) =>
      ReportsUnique(html, pat, 0);
      Trim(Captured(html, sp))
  }

  /** `capture_multi`: one trimmed capture per match `captures_iter` visits,
      in document order. */
  function CaptureMulti(html: string, pat: Pattern): (r: seq<string>)
    ensures |r| == |AllSpans(html, pat, 0)|
    ensures forall k :: 0 <= k < |r| ==> r[k] == Trim(Captured(html, AllSpans(html, pat, 0)[k]))
    ensures forall k :: 0 <= k < |r| ==> IsTrimmed(r[k])
  {
    var spans := AllSpans(html, pat, 0);
    seq(|spans|, k requires 0 <= k < |spans| => Trim(Captured(html, spans[k])))
  }

  /** At most one span is reported from a given search start. */
  lemma ReportsUnique(s: string, pat: Pattern, from: int)
    ensures forall a, b :: Reports(s, pat, from, a) && Reports(s, pat, from, b) ==> a == b
  {
    forall a, b | Reports(s, pat, from, a) && Reports(s, pat, from, b)
      ensures a == b
    {
      if a.MetaSpan? && b.MetaSpan? {
        MetaPattern.LeftmostFirstUnique(s, MetaPattern.NameAttr(pat.name), from, a.meta, b.meta);
      }
    }
  }

  /** No match of `pat` starts in `[a, b)`. */
  ghost predicate NoMatchIn(s: string, pat: Pattern, a: int, b: int) {
    match pat
    case Title => forall p, k :: a <= p < b ==> !TitlePattern.IsMatch(s, p, k)
    case Meta(name) =>
      forall p, i, j, q :: a <= p < b ==> !MetaPattern.IsMatch(s, MetaPattern.NameAttr(name), p, i, j, q)
  }

  /** No match starts where there is no `<`. */
  lemma NoOpenNoMatch(s: string, pat: Pattern, a: int, b: int)
    requires NoneAre(s, a, b, '<')
    ensures NoMatchIn(s, pat, a, b)
  {
    match pat
    case Title =>
      forall p, k | a <= p < b && TitlePattern.IsMatch(s, p, k)
        ensures false
      {
        StartsWithCIAt(s, p, TitlePattern.TitleOpen, 0);
      }
    case Meta(name) =>
      forall p, i, j, q | a <= p < b && MetaPattern.IsMatch(s, MetaPattern.NameAttr(name), p, i, j, q)
        ensures false
      {
        StartsWithCIAt(s, p, MetaPattern.MetaOpen, 0);
      }
  }

  /** Two adjacent stretches without a match starting make one. */
  lemma NoMatchInJoin(s: string, pat: Pattern, a: int, b: int, c: int)
    requires NoMatchIn(s, pat, a, b) && NoMatchIn(s, pat, b, c)
    ensures NoMatchIn(s, pat, a, c)
  {
  }

  /** No match starts at the end of the text. */
  lemma NoMatchAtEnd(s: string, pat: Pattern)
    ensures NoMatch(s, pat, |s|)
  {
  }

  /** Skipping a stretch where no match starts does not change what the
      search finds. */
  lemma FindSpanSkips(s: string, pat: Pattern, from: nat, from': nat)
    requires from <= from' <= |s| && NoMatchIn(s, pat, from, from')
    ensures FindSpan(s, pat, from) == FindSpan(s, pat, from')
  {
    var r' := FindSpan(s, pat, from');
    if r'.Some? {
      assert Reports(s, pat, from, r'.value);
      ReportsUnique(s, pat, from);
    } else {
      assert NoMatch(s, pat, from);
    }
  }

  /** The `k`-th capture `CaptureMulti` returns is the trimmed capture of the
      match the engine reports when it resumes after the previous match. */
  lemma CaptureMultiEntry(html: string, pat: Pattern, k: nat)
    requires k < |CaptureMulti(html, pat)|
    ensures var spans := AllSpans(html, pat, 0);
            && Reports(html, pat, SearchStart(0, spans, k), spans[k])
            && CaptureMulti(html, pat)[k] == Trim(Captured(html, spans[k]))
  {
    AllSpansAt(html, pat, 0, k);
  }

  /** `capture_multi` returns nothing exactly when the pattern does not
      match, and otherwise starts with what `capture_single` returns. */
  lemma CaptureMultiStartsWithSingle(html: string, pat: Pattern)
    ensures |CaptureMulti(html, pat)| == 0 <==> NoMatch(html, pat, 0)
    ensures |CaptureMulti(html, pat)| > 0 ==> CaptureMulti(html, pat)[0] == CaptureSingle(html, pat)
  {
    var spans := AllSpans(html, pat, 0);
    if |spans| > 0 {
      AllSpansAt(html, pat, 0, 0);
    } else {
      AllSpansExhaustive(html, pat, 0);
    }
  }

  /** A `</title>` in the trimmed text is one in the text, shifted by the
      leading whitespace. */
  lemma TrimmedClose(c: string, k: int)
    requires StartsWithCI(Trim(c), k, TitlePattern.TitleClose)
    ensures StartsWithCI(c, LeadingWhitespace(c) + k, TitlePattern.TitleClose)
  {
    OccurrenceInSlice(c, LeadingWhitespace(c), Trim(c), k, TitlePattern.TitleClose);
  }

  /** Trimming keeps only characters of the text. */
  lemma TrimmedChars(c: string)
    ensures forall ch :: ch in Trim(c) ==> ch in c
  {
    var r := Trim(c);
    var a := LeadingWhitespace(c);
    forall ch | ch in r ensures ch in c {
      var i :| 0 <= i < |r| && r[i] == ch;
      assert c[a + i] == ch;
    }
  }

  /** The lazy group of a meta pattern ends at the first quote, so no
      capture of a meta pattern contains `"`. */
  lemma MetaCapturesHaveNoQuote(html: string, name: string)
    ensures '"' !in CaptureSingle(html, Meta(name))
    ensures forall k :: 0 <= k < |CaptureMulti(html, Meta(name))| ==> '"' !in CaptureMulti(html, Meta(name))[k]
  {
    var pat := Meta(name);
    var attr := MetaPattern.NameAttr(name);
    match FindSpan(html, pat, 0)
    case None =>
    case Some(sp) =>
      MetaPattern.CaptureHasNoQuote(html, attr, 0, sp.meta);
      TrimmedChars(Captured(html, sp));
    var spans := AllSpans(html, pat, 0);
    forall k | 0 <= k < |CaptureMulti(html, pat)|
      ensures '"' !in CaptureMulti(html, pat)[k]
    {
      CaptureMultiEntry(html, pat, k);
      MetaPattern.CaptureHasNoQuote(html, attr, SearchStart(0, spans, k), spans[k].meta);
      TrimmedChars(Captured(html, spans[k]));
    }
  }

  /** The lazy group of the title pattern ends at the first `</title>`, so
      the title capture contains no case variant of `</title>`. */
  lemma TitleCaptureHasNoClose(html: string, k: int)
    ensures !StartsWithCI(CaptureSingle(html, Title), k, TitlePattern.TitleClose)
  {
    match FindSpan(html, Title, 0)
    case None =>
    case Some(sp) =>
      TitleSpanHasNoClose(html, sp, k);
  }

  /** The trimmed capture of a reported title match holds no `</title>`. */
  lemma TitleSpanHasNoClose(html: string, sp: Span, k: int)
    requires sp.TitleSpan? && sp.Within(html) && Reports(html, Title, 0, sp)
    ensures !StartsWithCI(Trim(Captured(html, sp)), k, TitlePattern.TitleClose)
  {
    var c := Captured(html, sp);
    if StartsWithCI(Trim(c), k, TitlePattern.TitleClose) {
      TrimmedClose(c, k);
      TitlePattern.CaptureHasNoClose(html, 0, sp.title, LeadingWhitespace(c) + k);
    }
  }

  /** Both pattern families begin with `<`: a text without `<` yields no
      captures. */
  lemma {:induction false} NoTagNoCapture(html: string, pat: Pattern)
    requires '<' !in html
    ensures NoMatch(html, pat, 0)
    ensures CaptureSingle(html, pat) == ""
    ensures CaptureMulti(html, pat) == []
  {
    CaptureMultiStartsWithSingle(html, pat);
    match pat
    case Title =>
      forall p, k | 0 <= p
        ensures !TitlePattern.IsMatch(html, p, k)
      {
        AbsentHeadNeverStarts(html, p, TitlePattern.TitleOpen);
      }
    case Meta(name) =>
      forall p, i, j, q | 0 <= p
        ensures !MetaPattern.IsMatch(html, MetaPattern.NameAttr(name), p, i, j, q)
      {
        AbsentHeadNeverStarts(html, p, MetaPattern.MetaOpen);
      }
  }
}

=== FILE: common.dfy ===
/** Failure-carrying wrappers shared by the other modules. */
module Common {

  /** A value that may be absent, as Rust's `Option`. */
  datatype Option<+T> = None | Some(value: T)

  /** A value or an error, as Rust's `Result`. */
  datatype Result<+T, +E> = Ok(value: T) | Err(error: E)
}

=== FILE: meta_pattern.dfy ===
/**
 The meta-tag pattern family of the scraper,
 `(?is)<meta[^>]*name="X"[^>]*content="(.*?)"`, as a leftmost-first
 matcher. A match is fixed by four offsets: the `<meta` start `p`, the
 `name="X"` attribute `i`, the `content="` attribute `j`, and the closing
 quote `q`; the capture is `s[j + 9 .. q]`.
 */
module MetaPattern {
  import opened Common
  import opened Text

  const MetaOpen: string := "<meta"
  const ContentOpen: string := "content=\""

  /** The literal `name="X"` the pattern for meta name `X` looks for. */
  function NameAttr(name: string): string {
    "name=\"" + name + "\""
  }

  /** Offsets of one match of the pattern. */
  datatype MetaMatch = MetaMatch(start: nat, name: nat, content: nat, close: nat) {
    /** Where the capture group begins. */
    function CaptureStart(): nat { content + |ContentOpen| }
  }

  /** `s` matches the pattern with `attr` = `name="X"` at these offsets:
      `<meta`, a `>`-free run, `attr`, a `>`-free run, `content="`, any text,
      and a `"`. All literals compare case-insensitively. */
  ghost predicate IsMatch(s: string, attr: string, p: int, i: int, j: int, q: int) {
    && StartsWithCI(s, p, MetaOpen)
    && p + |MetaOpen| <= i && NoneAre(s, p + |MetaOpen|, i, '>')
    && StartsWithCI(s, i, attr)
    && i + |attr| <= j && NoneAre(s, i + |attr|, j, '>')
    && StartsWithCI(s, j, ContentOpen)
    && j + |ContentOpen| <= q < |s| && s[q] == '"'
  }

  /** No match starts at or after `from`. */
  ghost predicate NoMatchFrom(s: string, attr: string, from: int) {
    forall p, i, j, q :: from <= p ==> !IsMatch(s, attr, p, i, j, q)
  }

  /** `m` is the match a backtracking (leftmost-first) engine reports when it
      searches from `from`: the leftmost start; at that start the longest first
      `[^>]*`; then the longest second `[^>]*`; then the shortest lazy `(.*?)`. */
  ghost predicate IsLeftmostFirst(s: string, attr: string, from: int, m: MetaMatch) {
    && from <= m.start
    && IsMatch(s, attr, m.start, m.name, m.content, m.close)
    && (forall p, i, j, q :: from <= p < m.start ==> !IsMatch(s, attr, p, i, j, q))
    && (forall i, j, q :: m.name < i ==> !IsMatch(s, attr, m.start, i, j, q))
    && (forall j, q :: m.content < j ==> !IsMatch(s, attr, m.start, m.name, j, q))
    && (forall q :: q < m.close ==> !IsMatch(s, attr, m.start, m.name, m.content, q))
  }

  /** A `content="` attribute at `j` with a closing quote somewhere after it. */
  predicate ContentAt(s: string, j: int) {
    StartsWithCI(s, j, ContentOpen) && Find(s, '"', j + |ContentOpen|) < |s|
  }

  /** The greatest `j` in `[lo, hi]` with `ContentAt(s, j)`. */
  function LastContent(s: string, lo: nat, hi: int): (r: Option<nat>)
    ensures r.Some? ==> lo <= r.value <= hi && ContentAt(s, r.value)
    ensures r.Some? ==> forall j :: r.value < j <= hi ==> !ContentAt(s, j)
    ensures r.None? ==> forall j :: lo <= j <= hi ==> !ContentAt(s, j)
    decreases hi - lo
  {
    if hi < lo then None
    else if ContentAt(s, hi) then Some(hi)
    else LastContent(s, lo, hi - 1)
  }

  /** The greatest `content="` offset that completes a match after `attr` at `i`. */
  function ContentAfter(s: string, attr: string, i: nat): Option<nat>
    requires i + |attr| <= |s|
  {
    LastContent(s, i + |attr|, Find(s, '>', i + |attr|))
  }

  /** An `attr` at `i` that some `content="…"` completes. */
  predicate NameAt(s: string, attr: string, i: int) {
    StartsWithCI(s, i, attr) && ContentAfter(s, attr, i).Some?
  }

  /** The greatest `i` in `[lo, hi]` with `NameAt(s, attr, i)`. */
  function LastName(s: string, attr: string, lo: nat, hi: int): (r: Option<nat>)
    ensures r.Some? ==> lo <= r.value <= hi && NameAt(s, attr, r.value)
    ensures r.Some? ==> forall i :: r.value < i <= hi ==> !NameAt(s, attr, i)
    ensures r.None? ==> forall i :: lo <= i <= hi ==> !NameAt(s, attr, i)
    decreases hi - lo
  {
    if hi < lo then None
    else if NameAt(s, attr, hi) then Some(hi)
    else LastName(s, attr, lo, hi - 1)
  }

  /** The greatest name offset that completes a match starting at `p`. */
  function NameAfter(s: string, attr: string, p: nat): Option<nat>
    requires p + |MetaOpen| <= |s|
  {
    LastName(s, attr, p + |MetaOpen|, Find(s, '>', p + |MetaOpen|))
  }

  /** A `<meta` at `p` that starts some match. */
  predicate StartAt(s: string, attr: string, p: int) {
    StartsWithCI(s, p, MetaOpen) && NameAfter(s, attr, p).Some?
  }

  /** The least `p` in `[from, |s|]` with `StartAt(s, attr, p)`. */
  function FirstStart(s: string, attr: string, from: nat): (r: Option<nat>)
    requires from <= |s|
    ensures r.Some? ==> from <= r.value <= |s| && StartAt(s, attr, r.value)
    ensures r.Some? ==> forall p :: from <= p < r.value ==> !StartAt(s, attr, p)
    ensures r.None? ==> forall p :: from <= p <= |s| ==> !StartAt(s, attr, p)
    decreases |s| - from
  {
    if StartAt(s, attr, from) then Some(from)
    else if from == |s| then None
    else FirstStart(s, attr, from + 1)
  }

  /** The first match at or after `from`, searching as the regex engine does. */
  function FindMatch(s: string, attr: string, from: nat): (r: Option<MetaMatch>)
    requires from <= |s|
    ensures r.Some? ==> from <= r.value.start < r.value.CaptureStart() <= r.value.close < |s|
  {
    match FirstStart(s, attr, from)
    case None => None
    case Some(p) =>
      var i := NameAfter(s, attr, p).value;
      var j := ContentAfter(s, attr, i).value;
      Some(MetaMatch(p, i, j, Find(s, '"', j + |ContentOpen|)))
  }

  /** A quote after `content="` makes `j` a candidate content offset. */
  lemma ContentFromQuote(s: string, j: int, q: int)
    requires StartsWithCI(s, j, ContentOpen)
    requires j + |ContentOpen| <= q < |s| && s[q] == '"'
    ensures ContentAt(s, j)
  {
    FindBoundsRun(s, '"', j + |ContentOpen|, q);
  }

  /** A content candidate within the `>`-free run after `attr` makes `i` a
      candidate name offset. */
  lemma NameFromContent(s: string, attr: string, i: int, j: int)
    requires StartsWithCI(s, i, attr)
    requires i + |attr| <= j && NoneAre(s, i + |attr|, j, '>')
    requires ContentAt(s, j)
    ensures NameAt(s, attr, i)
  {
    var hi := Find(s, '>', i + |attr|);
    FindBoundsRun(s, '>', i + |attr|, j);
    assert ContentAt(s, j) && i + |attr| <= j <= hi;
    assert LastContent(s, i + |attr|, hi).Some?;
  }

  /** A name candidate within the `>`-free run after `<meta` makes `p` a
      candidate start. */
  lemma StartFromName(s: string, attr: string, p: int, i: int)
    requires StartsWithCI(s, p, MetaOpen)
    requires p + |MetaOpen| <= i && NoneAre(s, p + |MetaOpen|, i, '>')
    requires NameAt(s, attr, i)
    ensures StartAt(s, attr, p)
  {
    var hi := Find(s, '>', p + |MetaOpen|);
    FindBoundsRun(s, '>', p + |MetaOpen|, i);
    assert NameAt(s, attr, i) && p + |MetaOpen| <= i <= hi;
    assert LastName(s, attr, p + |MetaOpen|, hi).Some?;
  }

  /** What an `IsMatch` tells about the search functions: its content offset
      satisfies `ContentAt`, its name offset `NameAt`, its start `StartAt`,
      and both lie within their `>`-free runs. */
  lemma MatchParts(s: string, attr: string, p: int, i: int, j: int, q: int)
    requires IsMatch(s, attr, p, i, j, q)
    ensures ContentAt(s, j)
    ensures j <= Find(s, '>', i + |attr|)
    ensures NameAt(s, attr, i)
    ensures i <= Find(s, '>', p + |MetaOpen|)
    ensures StartAt(s, attr, p)
  {
    ContentFromQuote(s, j, q);
    NameFromContent(s, attr, i, j);
    StartFromName(s, attr, p, i);
    FindBoundsRun(s, '>', i + |attr|, j);
    FindBoundsRun(s, '>', p + |MetaOpen|, i);
  }

  /** The offsets the search functions pick form a match. */
  lemma SearchIsMatch(s: string, attr: string, p: nat)
    requires StartAt(s, attr, p)
    ensures var i := NameAfter(s, attr, p).value;
            var j := ContentAfter(s, attr, i).value;
            IsMatch(s, attr, p, i, j, Find(s, '"', j + |ContentOpen|))
  {
    var i := NameAfter(s, attr, p).value;
    var j := ContentAfter(s, attr, i).value;
    FindBoundsRun(s, '>', p + |MetaOpen|, i);
    FindBoundsRun(s, '>', i + |attr|, j);
  }

  /** `FindMatch` reports exactly the leftmost-first match, and reports none
      exactly when no match starts at or after `from`. */
  lemma {:induction false} FindMatchIsLeftmostFirst(s: string, attr: string, from: nat)
    requires from <= |s|
    ensures FindMatch(s, attr, from).Some? ==> IsLeftmostFirst(s, attr, from, FindMatch(s, attr, from).value)
    ensures FindMatch(s, attr, from).None? <==> NoMatchFrom(s, attr, from)
  {
    match FirstStart(s, attr, from)
    case None =>
      NoStartNoMatch(s, attr, from);
    case Some(p) =>
      StartIsLeftmostFirst(s, attr, from, p);
  }

  /** Without a candidate start there is no match. */
  lemma NoStartNoMatch(s: string, attr: string, from: nat)
    requires from <= |s| && FirstStart(s, attr, from).None?
    ensures NoMatchFrom(s, attr, from)
  {
    forall p, i, j, q | from <= p
      ensures !IsMatch(s, attr, p, i, j, q)
    {
      if IsMatch(s, attr, p, i, j, q) {
        MatchParts(s, attr, p, i, j, q);
      }
    }
  }

  /** The match built from the first candidate start is the leftmost-first one. */
  lemma StartIsLeftmostFirst(s: string, attr: string, from: nat, p: nat)
    requires from <= |s| && FirstStart(s, attr, from) == Some(p)
    ensures FindMatch(s, attr, from).Some?
    ensures IsLeftmostFirst(s, attr, from, FindMatch(s, attr, from).value)
  {
    var m := FindMatch(s, attr, from).value;
    SearchIsMatch(s, attr, p);
    forall p', i, j, q | from <= p' < p
      ensures !IsMatch(s, attr, p', i, j, q)
    {
      if IsMatch(s, attr, p', i, j, q) {
        MatchParts(s, attr, p', i, j, q);
      }
    }
    forall i, j, q | m.name < i
      ensures !IsMatch(s, attr, p, i, j, q)
    {
      if IsMatch(s, attr, p, i, j, q) {
        MatchParts(s, attr, p, i, j, q);
      }
    }
    forall j, q | m.content < j
      ensures !IsMatch(s, attr, p, m.name, j, q)
    {
      if IsMatch(s, attr, p, m.name, j, q) {
        MatchParts(s, attr, p, m.name, j, q);
      }
    }
  }

  /** The leftmost-first match is unique. */
  lemma LeftmostFirstUnique(s: string, attr: string, from: int, m: MetaMatch, m': MetaMatch)
    requires IsLeftmostFirst(s, attr, from, m) && IsLeftmostFirst(s, attr, from, m')
    ensures m == m'
  {
  }

  /** The lazy group stops at the first quote: the capture contains no `"`. */
  lemma CaptureHasNoQuote(s: string, attr: string, from: int, m: MetaMatch)
    requires IsLeftmostFirst(s, attr, from, m)
    ensures '"' !in s[m.CaptureStart() .. m.close]
  {
    forall k | m.CaptureStart() <= k < m.close
      ensures s[k] != '"'
    {
      assert !IsMatch(s, attr, m.start, m.name, m.content, k);
    }
  }
}

=== FILE: meta_tags.dfy ===
/**
 What the meta patterns extract from pages built of well-formed tags
 `<meta name="X" content="C">`: the content of the first such tag for
 `capture_single`, and the contents of all of them in order for
 `capture_multi`.
 */
module MetaTags {
  import opened Common
  import opened Text
  import opened MetaPattern
  import opened Capture

  /** The tag `<meta name="X" content="C">`. */
  function Tag(name: string, content: string): string {
    MetaOpen + " " + NameAttr(name) + " " + ContentOpen + content + "\">"
  }

  /** Text that cannot end or extend an attribute or open a tag: no `"`,
      `=`, `>` or `<`. */
  predicate Plain(t: string) {
    forall k :: 0 <= k < |t| ==> t[k] != '"' && t[k] != '=' && t[k] != '>' && t[k] != '<'
  }

  /** Offset of `content="` within a tag. */
  function ContentOffset(name: string): nat { |MetaOpen| + 2 + |NameAttr(name)| }

  /** Offset of the closing quote within a tag. */
  function CloseOffset(name: string, content: string): nat {
    ContentOffset(name) + |ContentOpen| + |content|
  }

  /** The pieces of a tag and where they sit. */
  lemma TagPieces(name: string, content: string)
    ensures var t := Tag(name, content);
            var j := ContentOffset(name);
            var q := CloseOffset(name, content);
            && |t| == q + 2
            && t[..5] == MetaOpen && t[5] == ' '
            && t[6 .. j - 1] == NameAttr(name) && t[j - 1] == ' '
            && t[j .. j + 9] == ContentOpen
            && t[j + 9 .. q] == content
            && t[q] == '"' && t[q + 1] == '>'
  {
    var t := Tag(name, content);
    var j := ContentOffset(name);
    var q := CloseOffset(name, content);
    assert t == MetaOpen + " " + NameAttr(name) + " " + ContentOpen + content + "\">";
  }

  /** In a tag of plain name and content, `=` sits only at the two attribute
      signs and `>` only at the end. */
  lemma TagSigns(name: string, content: string)
    requires Plain(name) && Plain(content)
    ensures var t := Tag(name, content);
            var q := CloseOffset(name, content);
            && (forall x :: 0 <= x <= q ==> t[x] != '>')
            && (forall x :: 0 < x < |t| ==> t[x] != '<')
            && (forall x :: 0 <= x <= q && t[x] == '=' ==> x == 10 || x == ContentOffset(name) + 7)
            && (forall x :: ContentOffset(name) + 9 <= x < q ==> t[x] != '"')
  {
    TagPieces(name, content);
    var t := Tag(name, content);
    var attr := NameAttr(name);
    var j := ContentOffset(name);
    var q := CloseOffset(name, content);
    forall x | 0 <= x <= q + 1
      ensures x <= q ==> t[x] != '>'
      ensures 0 < x ==> t[x] != '<'
      ensures t[x] == '=' ==> x == 10 || x == j + 7
      ensures j + 9 <= x < q ==> t[x] != '"'
    {
      if x < 5 {
        assert t[x] == t[..5][x];
      } else if 6 <= x < j - 1 {
        assert t[x] == t[6 .. j - 1][x - 6] == attr[x - 6];
        if 12 <= x < j - 2 {
          assert attr[x - 6] == name[x - 12];
        }
      } else if j <= x < j + 9 {
        assert t[x] == t[j .. j + 9][x - j];
      } else if j + 9 <= x < q {
        assert t[x] == t[j + 9 .. q][x - j - 9] == content[x - j - 9];
      }
    }
  }

  /** The characters of a tag placed at `off` in `s`: the two `=` signs are the
      only ones, and `>` is only its last character. */
  lemma TagLayout(s: string, off: nat, name: string, content: string)
    requires Plain(name) && Plain(content)
    requires off + |Tag(name, content)| <= |s| && s[off .. off + |Tag(name, content)|] == Tag(name, content)
    ensures var q := off + CloseOffset(name, content);
            && q + 2 == off + |Tag(name, content)|
            && s[q] == '"' && s[q + 1] == '>'
            && NoneAre(s, off, q + 1, '>')
            && NoneAre(s, off + 1, q + 2, '<')
            && NoneAre(s, off + ContentOffset(name) + |ContentOpen|, q, '"')
            && s[off + ContentOffset(name) + |ContentOpen| .. q] == content
            && (forall x :: off <= x < q + 1 && s[x] == '=' ==> x == off + 10 || x == off + ContentOffset(name) + 7)
            && StartsWithCI(s, off, MetaOpen) && s[off + 1] == 'm'
            && s[off + |MetaOpen| + 1 .. off + ContentOffset(name) - 1] == NameAttr(name)
            && s[off + ContentOffset(name) - 1] == ' '
            && StartsWithCI(s, off + ContentOffset(name), ContentOpen)
  {
    TagPieces(name, content);
    TagSigns(name, content);
    var t := Tag(name, content);
    var attr := NameAttr(name);
    var j := ContentOffset(name);
    var q := CloseOffset(name, content);
    assert forall x :: off <= x < off + |t| ==> s[x] == t[x - off];
    assert s[off .. off + 5] == t[..5];
    assert s[off + 6 .. off + j - 1] == t[6 .. j - 1];
    assert s[off + j .. off + j + 9] == t[j .. j + 9];
    assert s[off + j + 9 .. off + q] == t[j + 9 .. q];
  }


  /** The attribute literal of a plain name has no `>`, and its `=` is at 4. */
  lemma AttrSigns(name: string)
    requires Plain(name)
    ensures var attr := NameAttr(name);
            && '>' !in attr && |attr| == |name| + 7 && attr[4] == '='
  {
    var attr := NameAttr(name);
    forall k | 0 <= k < |attr|
      ensures attr[k] != '>'
    {
      if 6 <= k < |attr| - 1 {
        assert attr[k] == name[k - 6];
      }
    }
  }

  /** Names equal up to case give attribute literals equal up to case. */
  lemma AttrFolds(name: string, key: string)
    requires EqualsCI(name, key)
    ensures EqualsCI(NameAttr(name), NameAttr(key))
  {
    var a := NameAttr(name);
    var b := NameAttr(key);
    forall k | 0 <= k < |b|
      ensures FoldEq(a[k], b[k])
    {
      if 6 <= k < |b| - 1 {
        assert a[k] == name[k - 6] && b[k] == key[k - 6];
      }
    }
  }

  /** Where the pattern matches a tag of plain name and content. */
  function TagMatch(off: nat, name: string, content: string): MetaMatch {
    MetaMatch(off, off + |MetaOpen| + 1, off + ContentOffset(name), off + CloseOffset(name, content))
  }

  /** Tag `<meta name="X" content="C">` sits at `off` in `s`. */
  predicate TagAt(s: string, off: nat, name: string, content: string) {
    OccursAt(s, off, Tag(name, content))
  }

  /** The pattern for `key` matches a tag whose name equals `key` up to case. */
  lemma TagIsMatch(s: string, off: nat, name: string, content: string, key: string)
    requires Plain(name) && Plain(content) && TagAt(s, off, name, content)
    requires EqualsCI(name, key)
    ensures var m := TagMatch(off, name, content);
            IsMatch(s, NameAttr(key), m.start, m.name, m.content, m.close)
  {
    TagLayout(s, off, name, content);
    AttrFolds(name, key);
  }

  /** A match of the pattern for `key` that starts at a tag uses the tag's own
      `name=` and `content=` (the only `=` signs before the tag's `>`), and
      so needs the tag's name to equal `key` up to case. */
  lemma TagAttributesFixed(s: string, off: nat, name: string, content: string, key: string,
                           i: int, j: int, q: int)
    requires Plain(name) && Plain(content) && TagAt(s, off, name, content) && Plain(key)
    requires IsMatch(s, NameAttr(key), off, i, j, q)
    ensures i == off + |MetaOpen| + 1 && j == off + ContentOffset(name)
    ensures EqualsCI(name, key)
  {
    TagLayout(s, off, name, content);
    AttrSigns(key);
    var attr := NameAttr(key);
    var g := off + CloseOffset(name, content) + 1;
    assert i <= g;
    OccurrenceEndsBefore(s, i, attr, g, '>');
    assert j <= g;
    OccurrenceEndsBefore(s, j, ContentOpen, g, '>');
    StartsWithCIAt(s, i, attr, 4);
    StartsWithCIAt(s, j, ContentOpen, 7);
    assert s[j + 7] == '=' && s[i + 4] == '=';
    NameFromAttr(s, off, name, content, key);
  }

  /** An occurrence of `name="key"` right after `<meta ` of a tag spells the
      tag's name up to case. */
  lemma NameFromAttr(s: string, off: nat, name: string, content: string, key: string)
    requires Plain(name) && Plain(content) && TagAt(s, off, name, content) && Plain(key)
    requires StartsWithCI(s, off + |MetaOpen| + 1, NameAttr(key))
    requires off + |MetaOpen| + 1 + |NameAttr(key)| <= off + ContentOffset(name)
    ensures EqualsCI(name, key)
  {
    AttrSameLength(s, off, name, content, key);
    var a := off + |MetaOpen| + 1;
    var attr := NameAttr(key);
    forall k | 0 <= k < |key|
      ensures FoldEq(name[k], key[k])
    {
      StartsWithCIAt(s, a, attr, 6 + k);
      TagNameChar(s, off, name, content, k);
    }
  }

  /** The name of a tag at `off`, character by character. */
  lemma TagNameChar(s: string, off: nat, name: string, content: string, k: nat)
    requires Plain(name) && Plain(content) && TagAt(s, off, name, content) && k < |name|
    ensures s[off + |MetaOpen| + 7 + k] == name[k]
  {
    TagLayout(s, off, name, content);
    var a := off + |MetaOpen| + 1;
    assert s[a .. off + ContentOffset(name) - 1][6 + k] == NameAttr(name)[6 + k];
  }

  /** An attribute `name="key"` after `<meta ` of a tag ends where the tag's
      own attribute ends: its closing quote can only be the tag's. */
  lemma AttrSameLength(s: string, off: nat, name: string, content: string, key: string)
    requires Plain(name) && Plain(content) && TagAt(s, off, name, content) && Plain(key)
    requires StartsWithCI(s, off + |MetaOpen| + 1, NameAttr(key))
    requires off + |MetaOpen| + 1 + |NameAttr(key)| <= off + ContentOffset(name)
    ensures |key| == |name|
  {
    TagLayout(s, off, name, content);
    var a := off + |MetaOpen| + 1;
    var attr := NameAttr(key);
    var g := a + |attr| - 1;
    StartsWithCIAt(s, a, attr, |attr| - 1);
    assert s[g] == '"';
  }

  /** A pattern match cannot start where there is no `<`. */
  lemma NoMatchWithoutOpen(s: string, attr: string, p: int, i: int, j: int, q: int)
    requires 0 <= p < |s| && s[p] != '<'
    ensures !IsMatch(s, attr, p, i, j, q)
  {
    if StartsWithCI(s, p, MetaOpen) {
      StartsWithCIAt(s, p, MetaOpen, 0);
    }
  }

  /** A tag at `off` whose name equals `key` up to case, with no match of the
      pattern between `from` and it, is the match the pattern for `key`
      reports when searching from `from`. */
  lemma TagIsLeftmostFirst(s: string, from: nat, off: nat, name: string, content: string, key: string)
    requires Plain(name) && Plain(content) && TagAt(s, off, name, content)
    requires Plain(key) && EqualsCI(name, key)
    requires from <= off
    requires forall p, i, j, q :: from <= p < off ==> !IsMatch(s, NameAttr(key), p, i, j, q)
    ensures IsLeftmostFirst(s, NameAttr(key), from, TagMatch(off, name, content))
  {
    var attr := NameAttr(key);
    var m := TagMatch(off, name, content);
    TagIsMatch(s, off, name, content, key);
    TagLayout(s, off, name, content);
    forall i, j, q | IsMatch(s, attr, m.start, i, j, q)
      ensures i == m.name && j == m.content
    {
      TagAttributesFixed(s, off, name, content, key, i, j, q);
    }
  }

  /** The pattern for `key` has no match starting inside a tag, and none at a
      tag whose name differs from `key` beyond case. */
  lemma TagNoOtherMatch(s: string, off: nat, name: string, content: string, key: string)
    requires Plain(name) && Plain(content) && TagAt(s, off, name, content) && Plain(key)
    ensures forall p, i, j, q :: off < p < off + |Tag(name, content)| ==> !IsMatch(s, NameAttr(key), p, i, j, q)
    ensures !EqualsCI(name, key) ==> forall i, j, q :: !IsMatch(s, NameAttr(key), off, i, j, q)
  {
    TagLayout(s, off, name, content);
    forall p, i, j, q | off < p < off + |Tag(name, content)|
      ensures !IsMatch(s, NameAttr(key), p, i, j, q)
    {
      NoMatchWithoutOpen(s, NameAttr(key), p, i, j, q);
    }
    forall i, j, q | IsMatch(s, NameAttr(key), off, i, j, q)
      ensures EqualsCI(name, key)
    {
      TagAttributesFixed(s, off, name, content, key, i, j, q);
    }
  }
}

=== FILE: page.dfy ===
/**
 Pages built of well-formed pieces: meta tags `<meta name="X" content="C">`,
 title elements `<title>T</title>` and text without `<`. On such a page the
 two regex helpers have a direct description: `capture_multi` returns the
 trimmed contents of the pieces the pattern names, in page order, and
 `capture_single` the first of them.
 */
module Page {
  import opened Common
  import opened Text
  import MetaPattern
  import TitlePattern
  import opened Capture
  import opened MetaTags

  /** One piece of a page: a meta tag, a title element, or plain text. */
  datatype Piece =
    | MetaPiece(name: string, content: string)
    | TitlePiece(title: string)
    | TextPiece(text: string)

  /** The characters of one piece. */
  function Show(pc: Piece): string {
    match pc
    case MetaPiece(n, c) => Tag(n, c)
    case TitlePiece(t) => TitlePattern.TitleOpen + t + TitlePattern.TitleClose
    case TextPiece(t) => t
  }

  /** Attribute values and texts that cannot start or end a tag. */
  predicate WellFormed(pc: Piece) {
    match pc
    case MetaPiece(n, c) => Plain(n) && Plain(c)
    case TitlePiece(t) => '<' !in t
    case TextPiece(t) => '<' !in t
  }

  /** Every piece of the page is well formed. */
  predicate AllWellFormed(ps: seq<Piece>) {
    forall k :: 0 <= k < |ps| ==> WellFormed(ps[k])
  }

  /** The page: its pieces one after the other. */
  function Render(ps: seq<Piece>): string {
    if |ps| == 0 then "" else Render(ps[..|ps| - 1]) + Show(ps[|ps| - 1])
  }

  /** Where piece `n` begins on the page. */
  function Offset(ps: seq<Piece>, n: nat): nat
    requires n <= |ps|
  {
    |Render(ps[..n])|
  }

  /** The meta name of a pattern is plain text, as all of the scraper's are. */
  predicate PatternOk(pat: Pattern) {
    pat.Meta? ==> Plain(pat.name)
  }

  /** The pieces a pattern is written to find: meta tags whose name equals the
      pattern's up to case, or title elements. */
  predicate Hits(pc: Piece, pat: Pattern) {
    match pc
    case MetaPiece(n, _) => pat.Meta? && EqualsCI(n, pat.name)
    case TitlePiece(_) => pat.Title?
    case TextPiece(_) => false
  }

  /** The text a piece holds: a tag's content, a title's text. */
  function Inner(pc: Piece): string {
    match pc
    case MetaPiece(_, c) => c
    case TitlePiece(t) => t
    case TextPiece(t) => t
  }

  /** The trimmed texts of the pieces `pat` names, in page order. */
  function Captures(ps: seq<Piece>, pat: Pattern): seq<string> {
    if |ps| == 0 then []
    else (if Hits(ps[0], pat) then [Trim(Inner(ps[0]))] else []) + Captures(ps[1..], pat)
  }

  /** Each prefix of the pieces renders to a prefix of the page. */
  lemma {:induction false} RenderPrefix(ps: seq<Piece>, n: nat)
    requires n <= |ps|
    ensures Render(ps[..n]) <= Render(ps)
    decreases |ps|
  {
    if n < |ps| {
      var init := ps[..|ps| - 1];
      assert init[..n] == ps[..n];
      RenderPrefix(init, n);
    } else {
      assert ps[..n] == ps;
    }
  }

  /** Piece `n` sits on the page between its offset and the next one. */
  lemma PieceAt(ps: seq<Piece>, n: nat)
    requires n < |ps|
    ensures Offset(ps, n + 1) == Offset(ps, n) + |Show(ps[n])| <= |Render(ps)|
    ensures Render(ps)[Offset(ps, n) .. Offset(ps, n + 1)] == Show(ps[n])
  {
    var pre := ps[..n + 1];
    assert pre[..n] == ps[..n];
    assert Render(pre) == Render(ps[..n]) + Show(ps[n]);
    RenderPrefix(ps, n + 1);
    SliceOfPrefix(Render(ps[..n]), Show(ps[n]), Render(ps));
  }

  /** When `a + b` begins `s`, `b` sits in `s` right after `a`. */
  lemma SliceOfPrefix(a: string, b: string, s: string)
    requires a + b <= s
    ensures s[|a| .. |a| + |b|] == b
  {
    assert forall x :: |a| <= x < |a| + |b| ==> s[x] == (a + b)[x];
  }

  /** The last offset is the page's length. */
  lemma OffsetAtEnd(ps: seq<Piece>)
    ensures Offset(ps, |ps|) == |Render(ps)|
  {
    assert ps[..|ps|] == ps;
  }

  /** The characters of a title element placed at `o`: `<` only at its two
      tags, each followed by a letter other than `m`. */
  lemma TitleLayout(s: string, o: nat, t: string)
    requires '<' !in t
    requires var w := Show(TitlePiece(t)); o + |w| <= |s| && s[o .. o + |w|] == w
    ensures var c := o + |TitlePattern.TitleOpen| + |t|;
            && o + |Show(TitlePiece(t))| == c + |TitlePattern.TitleClose|
            && s[o + 1] == 't' && s[c + 1] == '/'
            && NoneAre(s, o + 1, c, '<') && NoneAre(s, c + 1, c + |TitlePattern.TitleClose|, '<')
            && StartsWithCI(s, o, TitlePattern.TitleOpen) && StartsWithCI(s, c, TitlePattern.TitleClose)
            && s[o + |TitlePattern.TitleOpen| .. c] == t
  {
    var w := Show(TitlePiece(t));
    var c := o + 7 + |t|;
    assert forall x :: o <= x < o + |w| ==> s[x] == w[x - o];
    assert w[..7] == TitlePattern.TitleOpen && w[7 .. 7 + |t|] == t && w[7 + |t| ..] == TitlePattern.TitleClose;
    assert s[o .. o + 7] == w[..7];
    assert s[c .. c + 8] == w[7 + |t| ..];
    forall x | o + 7 <= x < c
      ensures s[x] != '<'
    {
      assert s[x] == t[x - o - 7];
    }
  }

  /** At a title element the title pattern reports the element. */
  lemma TitleFound(s: string, o: nat, t: string, from: nat)
    requires '<' !in t
    requires var w := Show(TitlePiece(t)); o + |w| <= |s| && s[o .. o + |w|] == w
    requires from <= o && NoMatchIn(s, Title, from, o)
    ensures FindSpan(s, Title, from) == Some(TitleSpan(TitlePattern.TitleMatch(o, o + |TitlePattern.TitleOpen| + |t|)))
  {
    var m := TitlePattern.TitleMatch(o, o + |TitlePattern.TitleOpen| + |t|);
    TitleIsLeftmostFirst(s, o, t, from);
    assert Reports(s, Title, from, TitleSpan(m));
    ReportsUnique(s, Title, from);
  }

  /** A title element is the leftmost-first title match when nothing before
      it matches. */
  lemma TitleIsLeftmostFirst(s: string, o: nat, t: string, from: nat)
    requires '<' !in t
    requires var w := Show(TitlePiece(t)); o + |w| <= |s| && s[o .. o + |w|] == w
    requires from <= o && NoMatchIn(s, Title, from, o)
    ensures TitlePattern.IsLeftmostFirst(s, from, TitlePattern.TitleMatch(o, o + |TitlePattern.TitleOpen| + |t|))
  {
    TitleLayout(s, o, t);
    var c := o + |TitlePattern.TitleOpen| + |t|;
    forall k | k < c && TitlePattern.IsMatch(s, o, k)
      ensures false
    {
      StartsWithCIAt(s, k, TitlePattern.TitleClose, 0);
    }
  }

  /** No meta pattern finds a match starting in a title element. */
  lemma TitleHidesMeta(s: string, o: nat, t: string, pat: Pattern)
    requires '<' !in t && pat.Meta?
    requires var w := Show(TitlePiece(t)); o + |w| <= |s| && s[o .. o + |w|] == w
    ensures NoMatchIn(s, pat, o, o + |Show(TitlePiece(t))|)
  {
    TitleLayout(s, o, t);
    var c := o + |TitlePattern.TitleOpen| + |t|;
    var attr := MetaPattern.NameAttr(pat.name);
    forall p, i, j, q | o <= p < c + |TitlePattern.TitleClose| && MetaPattern.IsMatch(s, attr, p, i, j, q)
      ensures false
    {
      if p == o {
        MismatchAt(s, o, MetaPattern.MetaOpen, 1);
      } else if p == c {
        MismatchAt(s, c, MetaPattern.MetaOpen, 1);
      } else {
        StartsWithCIAt(s, p, MetaPattern.MetaOpen, 0);
      }
    }
  }

  /** No title element starts inside a meta tag. */
  lemma TagHidesTitle(s: string, o: nat, n: string, c: string)
    requires Plain(n) && Plain(c) && TagAt(s, o, n, c)
    ensures NoMatchIn(s, Title, o, o + |Tag(n, c)|)
  {
    TagLayout(s, o, n, c);
    forall p, k | o <= p < o + |Tag(n, c)| && TitlePattern.IsMatch(s, p, k)
      ensures false
    {
      if p == o {
        MismatchAt(s, o, TitlePattern.TitleOpen, 1);
      } else {
        StartsWithCIAt(s, p, TitlePattern.TitleOpen, 0);
      }
    }
  }

  /** At a meta tag the pattern for its name reports the tag. */
  lemma TagFound(s: string, o: nat, n: string, c: string, key: string, from: nat)
    requires Plain(n) && Plain(c) && Plain(key) && TagAt(s, o, n, c) && EqualsCI(n, key)
    requires from <= o && NoMatchIn(s, Meta(key), from, o)
    ensures FindSpan(s, Meta(key), from) == Some(MetaSpan(TagMatch(o, n, c)))
  {
    TagIsLeftmostFirst(s, from, o, n, c, key);
    assert Reports(s, Meta(key), from, MetaSpan(TagMatch(o, n, c)));
    ReportsUnique(s, Meta(key), from);
  }

  /** At a meta tag the pattern for its name reports the tag, and the other
      patterns find nothing in it. */
  lemma MetaStep(s: string, o: nat, n: string, c: string, pat: Pattern, from: nat)
    requires Plain(n) && Plain(c) && TagAt(s, o, n, c) && PatternOk(pat)
    requires from <= o && NoMatchIn(s, pat, from, o)
    ensures !Hits(MetaPiece(n, c), pat) ==> NoMatchIn(s, pat, from, o + |Tag(n, c)|)
    ensures Hits(MetaPiece(n, c), pat) ==> FindSpan(s, pat, from) == Some(MetaSpan(TagMatch(o, n, c)))
  {
    var e := o + |Tag(n, c)|;
    match pat
    case Title =>
      TagHidesTitle(s, o, n, c);
      NoMatchInJoin(s, pat, from, o, e);
    case Meta(key) =>
      if EqualsCI(n, key) {
        TagFound(s, o, n, c, key, from);
      } else {
        TagNoOtherMatch(s, o, n, c, key);
        NoMatchInJoin(s, pat, from, o, e);
      }
  }

  /** What the search for `pat` from `from` sees at a piece at `o`: a piece
      the pattern names is the match reported, with the piece's text as its
      capture and nothing but the piece's last character left of it; any
      other piece holds no match. */
  ghost predicate Outcome(s: string, pat: Pattern, pc: Piece, from: nat, o: nat) {
    && (!Hits(pc, pat) ==> NoMatchIn(s, pat, from, o + |Show(pc)|))
    && (Hits(pc, pat) ==>
          && from <= |s|
          && var r := FindSpan(s, pat, from);
          && r.Some? && o < r.value.End() <= o + |Show(pc)|
          && NoneAre(s, r.value.End(), o + |Show(pc)|, '<')
          && Captured(s, r.value) == Inner(pc))
  }

  /** Text holds no `<`, so no match starts inside it. */
  lemma TextOutcome(s: string, o: nat, t: string, pat: Pattern, from: nat)
    requires '<' !in t && OccursAt(s, o, Show(TextPiece(t)))
    requires from <= o && NoMatchIn(s, pat, from, o)
    ensures Outcome(s, pat, TextPiece(t), from, o)
  {
    assert forall x :: o <= x < o + |t| ==> s[x] == t[x - o];
    NoOpenNoMatch(s, pat, o, o + |t|);
    NoMatchInJoin(s, pat, from, o, o + |t|);
  }

  /** A title element is the title pattern's match and hides no meta match. */
  lemma TitleOutcome(s: string, o: nat, t: string, pat: Pattern, from: nat)
    requires '<' !in t && OccursAt(s, o, Show(TitlePiece(t)))
    requires from <= o && NoMatchIn(s, pat, from, o)
    ensures Outcome(s, pat, TitlePiece(t), from, o)
  {
    if pat.Title? {
      TitleLayout(s, o, t);
      TitleFound(s, o, t, from);
    } else {
      TitleHidesMeta(s, o, t, pat);
      NoMatchInJoin(s, pat, from, o, o + |Show(TitlePiece(t))|);
    }
  }

  /** A meta tag is the match of a pattern naming it, and holds no match of
      any other pattern. */
  lemma MetaOutcome(s: string, o: nat, n: string, c: string, pat: Pattern, from: nat)
    requires Plain(n) && Plain(c) && OccursAt(s, o, Show(MetaPiece(n, c))) && PatternOk(pat)
    requires from <= o && NoMatchIn(s, pat, from, o)
    ensures Outcome(s, pat, MetaPiece(n, c), from, o)
  {
    assert TagAt(s, o, n, c);
    MetaStep(s, o, n, c, pat, from);
    if Hits(MetaPiece(n, c), pat) {
      TagSpan(s, o, n, c);
    }
  }

  /** The match at a meta tag ends at the tag's closing quote, leaving only
      its `>`, and captures its content. */
  lemma TagSpan(s: string, o: nat, n: string, c: string)
    requires Plain(n) && Plain(c) && TagAt(s, o, n, c)
    ensures var sp := MetaSpan(TagMatch(o, n, c));
            && sp.Within(s) && o < sp.End() < o + |Tag(n, c)|
            && NoneAre(s, sp.End(), o + |Tag(n, c)|, '<')
            && Captured(s, sp) == c
  {
    TagLayout(s, o, n, c);
  }

  /** Piece `n` as the search meets it. */
  lemma Step(ps: seq<Piece>, pat: Pattern, n: nat, from: nat)
    requires AllWellFormed(ps) && PatternOk(pat) && n < |ps|
    requires from <= Offset(ps, n) && NoMatchIn(Render(ps), pat, from, Offset(ps, n))
    ensures Offset(ps, n + 1) == Offset(ps, n) + |Show(ps[n])| <= |Render(ps)|
    ensures Outcome(Render(ps), pat, ps[n], from, Offset(ps, n))
  {
    var s := Render(ps);
    var o := Offset(ps, n);
    PieceAt(ps, n);
    assert WellFormed(ps[n]) && OccursAt(s, o, Show(ps[n]));
    match ps[n]
    case TextPiece(t) => TextOutcome(s, o, t, pat, from);
    case TitlePiece(t) => TitleOutcome(s, o, t, pat, from);
    case MetaPiece(nm, c) => MetaOutcome(s, o, nm, c, pat, from);
  }

  /** `caps` are the trimmed captures of `spans`, one for one. */
  ghost predicate Agree(s: string, spans: seq<Span>, caps: seq<string>) {
    && |spans| == |caps|
    && forall k :: 0 <= k < |spans| ==> spans[k].Within(s) && Trim(Captured(s, spans[k])) == caps[k]
  }

  /** A span and its trimmed capture extend an agreeing pair of lists. */
  lemma AgreeCons(s: string, sp: Span, spans: seq<Span>, c: string, caps: seq<string>)
    requires sp.Within(s) && Trim(Captured(s, sp)) == c && Agree(s, spans, caps)
    ensures Agree(s, [sp] + spans, [c] + caps)
  {
    assert forall k :: 0 < k <= |spans| ==> ([sp] + spans)[k] == spans[k - 1] && ([c] + caps)[k] == caps[k - 1];
  }

  /** A match found first puts its capture ahead of those after it. */
  lemma AgreeAfterMatch(s: string, pat: Pattern, from: nat, c: string, caps: seq<string>)
    requires from <= |s| && FindSpan(s, pat, from).Some?
    requires var sp := FindSpan(s, pat, from).value;
             Trim(Captured(s, sp)) == c && Agree(s, AllSpans(s, pat, sp.End()), caps)
    ensures Agree(s, AllSpans(s, pat, from), [c] + caps)
  {
    var sp := FindSpan(s, pat, from).value;
    assert AllSpans(s, pat, from) == [sp] + AllSpans(s, pat, sp.End());
    AgreeCons(s, sp, AllSpans(s, pat, sp.End()), c, caps);
  }

  /** With no match left, the search collects nothing. */
  lemma NothingLeft(s: string, pat: Pattern, from: nat)
    requires from <= |s| && NoMatchIn(s, pat, from, |s|)
    ensures AllSpans(s, pat, from) == []
  {
    NoMatchAtEnd(s, pat);
    FindSpanSkips(s, pat, from, |s|);
  }

  /** The pieces from `n` on, unrolled by one. */
  lemma CapturesUnroll(ps: seq<Piece>, pat: Pattern, n: nat)
    requires n < |ps|
    ensures Captures(ps[n..], pat) ==
            (if Hits(ps[n], pat) then [Trim(Inner(ps[n]))] else []) + Captures(ps[n + 1..], pat)
  {
    assert ps[n..][1..] == ps[n + 1..];
  }

  /** A piece the pattern does not name adds no capture. */
  lemma CapturesSkip(ps: seq<Piece>, pat: Pattern, n: nat)
    requires n < |ps| && !Hits(ps[n], pat)
    ensures Captures(ps[n..], pat) == Captures(ps[n + 1..], pat)
  {
    CapturesUnroll(ps, pat, n);
  }

  /** From piece `n` on, the captures the search collects are the trimmed
      texts of the pieces the pattern names. */
  lemma {:induction false} CapturesFrom(ps: seq<Piece>, pat: Pattern, n: nat, from: nat)
    requires AllWellFormed(ps) && PatternOk(pat) && n <= |ps|
    requires from <= Offset(ps, n) && NoMatchIn(Render(ps), pat, from, Offset(ps, n))
    ensures from <= |Render(ps)|
    ensures Agree(Render(ps), AllSpans(Render(ps), pat, from), Captures(ps[n..], pat))
    decreases |ps| - n, 1
  {
    if n == |ps| {
      CapturesAtEnd(ps, pat, from);
    } else if Hits(ps[n], pat) {
      CapturesFromHit(ps, pat, n, from);
    } else {
      MissStep(ps, pat, n, from);
      CapturesFrom(ps, pat, n + 1, from);
      CapturesSkip(ps, pat, n);
    }
  }

  /** Past the last piece the search collects nothing. */
  lemma CapturesAtEnd(ps: seq<Piece>, pat: Pattern, from: nat)
    requires from <= Offset(ps, |ps|) && NoMatchIn(Render(ps), pat, from, Offset(ps, |ps|))
    ensures from <= |Render(ps)|
    ensures Agree(Render(ps), AllSpans(Render(ps), pat, from), Captures(ps[|ps|..], pat))
  {
    OffsetAtEnd(ps);
    NothingLeft(Render(ps), pat, from);
    assert ps[|ps|..] == [];
  }

  /** `CapturesFrom` when piece `n` is one the pattern names. */
  lemma {:induction false} CapturesFromHit(ps: seq<Piece>, pat: Pattern, n: nat, from: nat)
    requires AllWellFormed(ps) && PatternOk(pat) && n < |ps| && Hits(ps[n], pat)
    requires from <= Offset(ps, n) && NoMatchIn(Render(ps), pat, from, Offset(ps, n))
    ensures from <= |Render(ps)|
    ensures Agree(Render(ps), AllSpans(Render(ps), pat, from), Captures(ps[n..], pat))
    decreases |ps| - n, 0
  {
    var s := Render(ps);
    CapturesUnroll(ps, pat, n);
    HitStep(ps, pat, n, from);
    var sp := FindSpan(s, pat, from).value;
    CapturesFrom(ps, pat, n + 1, sp.End());
    AgreeAfterMatch(s, pat, from, Trim(Inner(ps[n])), Captures(ps[n + 1..], pat));
  }

  /** A piece the pattern names is the next match, and the search resumes
      with nothing to find before the following piece. */
  lemma HitStep(ps: seq<Piece>, pat: Pattern, n: nat, from: nat)
    requires AllWellFormed(ps) && PatternOk(pat) && n < |ps| && Hits(ps[n], pat)
    requires from <= Offset(ps, n) && NoMatchIn(Render(ps), pat, from, Offset(ps, n))
    ensures from <= |Render(ps)| && FindSpan(Render(ps), pat, from).Some?
    ensures var sp := FindSpan(Render(ps), pat, from).value;
            && sp.End() <= Offset(ps, n + 1)
            && NoMatchIn(Render(ps), pat, sp.End(), Offset(ps, n + 1))
            && Trim(Captured(Render(ps), sp)) == Trim(Inner(ps[n]))
  {
    var s := Render(ps);
    Step(ps, pat, n, from);
    var sp := FindSpan(s, pat, from).value;
    NoOpenNoMatch(s, pat, sp.End(), Offset(ps, n + 1));
  }

  /** The search passes over a piece the pattern does not name. */
  lemma MissStep(ps: seq<Piece>, pat: Pattern, n: nat, from: nat)
    requires AllWellFormed(ps) && PatternOk(pat) && n < |ps| && !Hits(ps[n], pat)
    requires from <= Offset(ps, n) && NoMatchIn(Render(ps), pat, from, Offset(ps, n))
    ensures from <= Offset(ps, n + 1) && NoMatchIn(Render(ps), pat, from, Offset(ps, n + 1))
  {
    Step(ps, pat, n, from);
  }

  /** On a page of well-formed pieces `capture_multi` returns the trimmed
      texts of the pieces the pattern names, in page order, repeats
      included. */
  lemma CaptureMultiOfPage(ps: seq<Piece>, pat: Pattern)
    requires AllWellFormed(ps) && PatternOk(pat)
    ensures CaptureMulti(Render(ps), pat) == Captures(ps, pat)
  {
    assert ps[..0] == [] && ps[0..] == ps;
    CapturesFrom(ps, pat, 0, 0);
  }

  /** On a page of well-formed pieces `capture_single` returns the trimmed
      text of the first piece the pattern names, or "" when there is none. */
  lemma CaptureSingleOfPage(ps: seq<Piece>, pat: Pattern)
    requires AllWellFormed(ps) && PatternOk(pat)
    ensures CaptureSingle(Render(ps), pat) == if |Captures(ps, pat)| == 0 then "" else Captures(ps, pat)[0]
  {
    CaptureMultiOfPage(ps, pat);
    CaptureMultiStartsWithSingle(Render(ps), pat);
  }
}

=== FILE: page_extract.dfy ===
/**
 What `scrape` extracts from a page of well-formed pieces, described from
 the pieces alone: each single field is the trimmed text of the first piece
 its pattern names, and the image list holds the trimmed contents of every
 `og:image` tag in page order.
 */
module PageExtract {
  import opened Common
  import opened Text
  import opened Capture
  import opened MetaTags
  import opened Page
  import opened Scraper

  /** The trimmed text of the first piece `pat` names, or "". */
  function First(ps: seq<Piece>, pat: Pattern): string {
    var cs := Captures(ps, pat);
    if |cs| == 0 then "" else cs[0]
  }

  /** The record `scrape` builds for a page, read off its pieces. */
  function ExtractPieces(ps: seq<Piece>): RednoteResult {
    RednoteResult(
      NoteId(First(ps, Meta("og:url"))),
      Nickname(First(ps, Meta("og:title"))),
      First(ps, Title),
      First(ps, Meta("description")),
      First(ps, Meta("keywords")),
      First(ps, Meta("og:videotime")),
      Engagement(
        First(ps, Meta("og:xhs:note_like")),
        First(ps, Meta("og:xhs:note_comment")),
        First(ps, Meta("og:xhs:note_collect"))),
      Captures(ps, Meta("og:image")),
      Downloads(First(ps, Meta("og:video"))))
  }

  /** The meta names the scraper asks for are plain text. */
  lemma NamesArePlain()
    ensures PatternOk(Title)
    ensures PatternOk(Meta("og:url")) && PatternOk(Meta("og:title")) && PatternOk(Meta("description"))
    ensures PatternOk(Meta("keywords")) && PatternOk(Meta("og:videotime")) && PatternOk(Meta("og:video"))
    ensures PatternOk(Meta("og:image")) && PatternOk(Meta("og:xhs:note_like"))
    ensures PatternOk(Meta("og:xhs:note_comment")) && PatternOk(Meta("og:xhs:note_collect"))
  {
    OgNamesArePlain();
    NoteNamesArePlain();
    assert Plain("description");
    assert Plain("keywords");
  }

  /** The Open Graph names the scraper asks for are plain text. */
  lemma OgNamesArePlain()
    ensures Plain("og:url") && Plain("og:title") && Plain("og:image")
    ensures Plain("og:video") && Plain("og:videotime")
  {
  }

  /** The engagement names the scraper asks for are plain text. */
  lemma NoteNamesArePlain()
    ensures Plain("og:xhs:note_like") && Plain("og:xhs:note_comment") && Plain("og:xhs:note_collect")
  {
  }

  /** A single field read off a page is its first named piece's text. */
  lemma SingleField(ps: seq<Piece>, pat: Pattern)
    requires AllWellFormed(ps) && PatternOk(pat)
    ensures CaptureSingle(Render(ps), pat) == First(ps, pat)
  {
    CaptureSingleOfPage(ps, pat);
  }

  /** `scrape`'s extraction of a page of well-formed pieces is the record read
      off its pieces. */
  lemma ExtractOfPage(ps: seq<Piece>)
    requires AllWellFormed(ps)
    ensures Extract(Render(ps)) == ExtractPieces(ps)
  {
    NamesArePlain();
    var h := Render(ps);
    var r := Extract(h);
    SingleField(ps, Title);
    SingleField(ps, Meta("description"));
    SingleField(ps, Meta("keywords"));
    SingleField(ps, Meta("og:video"));
    SingleField(ps, Meta("og:url"));
    SingleField(ps, Meta("og:videotime"));
    SingleField(ps, Meta("og:title"));
    CaptureMultiOfPage(ps, Meta("og:image"));
    SingleField(ps, Meta("og:xhs:note_comment"));
    SingleField(ps, Meta("og:xhs:note_like"));
    SingleField(ps, Meta("og:xhs:note_collect"));
  }

  /** The captures of a page one piece longer at the front. */
  lemma CapturesCons(pc: Piece, ps: seq<Piece>, pat: Pattern)
    ensures Captures([pc] + ps, pat) == (if Hits(pc, pat) then [Trim(Inner(pc))] else []) + Captures(ps, pat)
  {
    assert ([pc] + ps)[1..] == ps;
  }

  /** Meta names the scraper asks for that differ beyond case. */
  lemma DistinctNames()
    ensures !EqualsCI("og:title", "og:image") && !EqualsCI("og:url", "og:image")
    ensures !EqualsCI("og:image", "og:title") && !EqualsCI("og:url", "og:title")
    ensures !EqualsCI("og:title", "og:url") && !EqualsCI("og:image", "og:url")
  {
    assert !FoldEq("og:title"[3], "og:image"[3]);
    assert !FoldEq("og:url"[3], "og:image"[3]);
    assert !FoldEq("og:image"[3], "og:title"[3]);
    assert !FoldEq("og:url"[3], "og:title"[3]);
  }

  /** The example note's `og:title` and `og:url`. */
  const AuthorTitle: string := "Alice - My Trip"
  const NoteUrl: string := "https://www.xiaohongshu.com/explore/64abc123"

  /** The example's title and URL neither start nor end with whitespace. */
  lemma ExampleTextsTrimmed()
    ensures IsTrimmed(AuthorTitle) && IsTrimmed(NoteUrl)
  {
    assert AuthorTitle[0] == 'A' && AuthorTitle[|AuthorTitle| - 1] == 'p';
    assert NoteUrl[0] == 'h' && NoteUrl[|NoteUrl| - 1] == '3';
  }

  /** A note page with an `og:title`, an `og:url` and three `og:image`
      tags, the first image repeated last. */
  function NotePage(a: string, b: string): seq<Piece> {
    [MetaPiece("og:title", AuthorTitle)] + ([MetaPiece("og:url", NoteUrl)] + NoteImages(a, b))
  }

  /** The example's three `og:image` tags: `a`, `b`, then `a` again. */
  function NoteImages(a: string, b: string): seq<Piece> {
    [MetaPiece("og:image", a)] + ([MetaPiece("og:image", b)] + [MetaPiece("og:image", a)])
  }

  /** The example's title and URL can sit in a tag. */
  lemma ExampleTextsPlain()
    ensures Plain(AuthorTitle) && Plain(NoteUrl)
  {
    assert Plain(AuthorTitle);
    assert Plain(NoteUrl);
  }

  /** The example page is made of well-formed pieces. */
  lemma NotePageWellFormed(a: string, b: string)
    requires Plain(a) && Plain(b)
    ensures AllWellFormed(NotePage(a, b))
  {
    ExampleTextsPlain();
    OgNamesArePlain();
    var ps := NotePage(a, b);
    assert ps == [MetaPiece("og:title", AuthorTitle), MetaPiece("og:url", NoteUrl),
                  MetaPiece("og:image", a), MetaPiece("og:image", b), MetaPiece("og:image", a)];
  }

  /** The three image tags capture `a`, `b`, `a`. */
  lemma NoteImagesCaptures(a: string, b: string)
    requires IsTrimmed(a) && IsTrimmed(b)
    ensures Captures(NoteImages(a, b), Meta("og:image")) == [a, b, a]
  {
    var ia := MetaPiece("og:image", a);
    var rest := [MetaPiece("og:image", b)] + [ia];
    assert NoteImages(a, b) == [ia] + rest;
    TwoImages(b, a);
    ImageHit(a);
    CapturesCons(ia, rest, Meta("og:image"));
    ConsThree(a, b, a);
  }

  /** Consing onto a pair gives the triple. */
  lemma ConsThree<T>(x: T, y: T, z: T)
    ensures [x] + [y, z] == [x, y, z]
  {
  }

  /** The captures of the last two image tags. */
  lemma TwoImages(a: string, b: string)
    requires IsTrimmed(a) && IsTrimmed(b)
    ensures Captures([MetaPiece("og:image", a)] + [MetaPiece("og:image", b)], Meta("og:image")) == [a, b]
  {
    var ib := MetaPiece("og:image", b);
    OneImage(b);
    ImageHit(a);
    CapturesCons(MetaPiece("og:image", a), [ib], Meta("og:image"));
  }

  /** The capture of the last image tag. */
  lemma OneImage(a: string)
    requires IsTrimmed(a)
    ensures Captures([MetaPiece("og:image", a)], Meta("og:image")) == [a]
  {
    ImageHit(a);
  }

  /** An `og:image` tag holding trimmed text is captured as that text. */
  lemma ImageHit(t: string)
    requires IsTrimmed(t)
    ensures Hits(MetaPiece("og:image", t), Meta("og:image"))
    ensures Trim(Inner(MetaPiece("og:image", t))) == t
  {
    TrimOfTrimmed(t);
  }

  /** On the whole page the `og:image` captures are still `a`, `b`, `a`:
      the title and URL tags are not images. */
  lemma NotePageImages(a: string, b: string)
    requires IsTrimmed(a) && IsTrimmed(b)
    ensures Captures(NotePage(a, b), Meta("og:image")) == [a, b, a]
  {
    var pat := Meta("og:image");
    DistinctNames();
    NoteImagesCaptures(a, b);
    CapturesCons(MetaPiece("og:url", NoteUrl), NoteImages(a, b), pat);
    CapturesCons(MetaPiece("og:title", AuthorTitle), [MetaPiece("og:url", NoteUrl)] + NoteImages(a, b), pat);
  }

  /** Without a piece `pat` names, `pat` captures nothing. */
  lemma {:induction false} NothingNamed(ps: seq<Piece>, pat: Pattern)
    requires forall k :: 0 <= k < |ps| ==> !Hits(ps[k], pat)
    ensures Captures(ps, pat) == []
  {
    if |ps| > 0 {
      NothingNamed(ps[1..], pat);
    }
  }

  /** The page's first `og:title` is the example title. */
  lemma NotePageTitleTag(a: string, b: string)
    ensures First(NotePage(a, b), Meta("og:title")) == AuthorTitle
  {
    var rest := [MetaPiece("og:url", NoteUrl)] + NoteImages(a, b);
    ExampleTextsTrimmed();
    TrimOfTrimmed(AuthorTitle);
    CapturesCons(MetaPiece("og:title", AuthorTitle), rest, Meta("og:title"));
  }

  /** The `og:title` tag is not named by the `og:url` pattern. */
  lemma TitleTagIsNotUrl()
    ensures !Hits(MetaPiece("og:title", AuthorTitle), Meta("og:url"))
  {
    assert !FoldEq("og:title"[3], "og:url"[3]);
  }

  /** After the title tag, the first `og:url` capture is the example URL. */
  lemma UrlTagFirst(a: string, b: string)
    ensures Captures([MetaPiece("og:url", NoteUrl)] + NoteImages(a, b), Meta("og:url"))[0] == NoteUrl
  {
    ExampleTextsTrimmed();
    TrimOfTrimmed(NoteUrl);
    CapturesCons(MetaPiece("og:url", NoteUrl), NoteImages(a, b), Meta("og:url"));
  }

  /** The page's first `og:url` is the example URL. */
  lemma NotePageUrlTag(a: string, b: string)
    ensures First(NotePage(a, b), Meta("og:url")) == NoteUrl
  {
    TitleTagIsNotUrl();
    UrlTagFirst(a, b);
    CapturesCons(MetaPiece("og:title", AuthorTitle), [MetaPiece("og:url", NoteUrl)] + NoteImages(a, b), Meta("og:url"));
  }

  /** The page has no title element, so the title is empty. */
  lemma NotePageNoTitle(a: string, b: string)
    ensures First(NotePage(a, b), Title) == ""
  {
    NothingNamed(NotePage(a, b), Title);
  }

  /** On the note page the nickname is the author part of the title, the note
      id the last segment of the URL, and the images come in page order with
      the repeat kept. */
  lemma NotePageExample(a: string, b: string)
    requires Plain(a) && Plain(b) && IsTrimmed(a) && IsTrimmed(b)
    ensures var r := Extract(Render(NotePage(a, b)));
            && r.nickname == "Alice" && r.noteId == "64abc123"
            && r.images == [a, b, a] && r.title == ""
  {
    var ps := NotePage(a, b);
    NotePageWellFormed(a, b);
    ExtractOfPage(ps);
    NotePageImages(a, b);
    NotePageTitleTag(a, b);
    NotePageUrlTag(a, b);
    NotePageNoTitle(a, b);
    NicknameOfAuthorTitle();
    NoteIdOfNoteUrl();
  }
}

=== FILE: scraper.dfy ===
/**
 The scraper: the result records, the pure extraction that turns a page's
 HTML into a `RednoteResult`, and `scrape`, which fetches a page and
 extracts from it. The fetch itself is a parameter.
 */
module Scraper {
  import opened Common
  import opened Text
  import opened Capture
  import TitlePattern

  /** Engagement counters exactly as the page renders them (e.g. "1.2k"). */
  datatype Engagement = Engagement(likes: string, comments: string, collects: string)

  /** One downloadable rendition of the note's video. */
  datatype Download = Download(quality: string, url: string)

  /** Everything extracted from one note page. */
  datatype RednoteResult = RednoteResult(
    noteId: string,
    nickname: string,
    title: string,
    desc: string,
    keywords: string,
    duration: string,
    engagement: Engagement,
    images: seq<string>,
    downloads: seq<Download>)

  const TitleSeparator: string := " - "
  const OriginalQuality: string := "Original"

  /** The record of a page on which no pattern matches. */
  const EmptyResult: RednoteResult :=
    RednoteResult("", "", "", "", "", "", Engagement("", "", ""), [], [])

  /** The note id: the last `/`-separated segment of the page's `og:url`. */
  function NoteId(ogUrl: string): (r: string)
    ensures |r| <= |ogUrl| && r == ogUrl[|ogUrl| - |r|..]
    ensures '/' !in r
    ensures r == ogUrl || ogUrl[|ogUrl| - |r| - 1] == '/'
  {
    AfterLast(ogUrl, '/')
  }

  /** The author's nickname: the `og:title` text before the first " - ". */
  function Nickname(ogTitle: string): (r: string)
    ensures |r| <= |ogTitle| && r == ogTitle[..|r|]
    ensures forall m :: 0 <= m < |r| ==> !OccursAt(ogTitle, m, TitleSeparator)
    ensures r == ogTitle || OccursAt(ogTitle, |r|, TitleSeparator)
  {
    BeforeFirst(ogTitle, TitleSeparator)
  }

  /** The download list: the video in its original quality when the page
      names a video, and nothing otherwise. */
  function Downloads(videoUrl: string): (r: seq<Download>)
    ensures |r| <= 1
    ensures |r| == 0 <==> videoUrl == ""
    ensures forall d :: d in r ==> d == Download(OriginalQuality, videoUrl)
  {
    if videoUrl != "" then [Download(OriginalQuality, videoUrl)] else []
  }

  /** No pattern the extraction uses matches anywhere in `html`. */
  ghost predicate NoFieldMatches(html: string) {
    && NoMatch(html, Title, 0)
    && NoMatch(html, Meta("description"), 0)
    && NoMatch(html, Meta("keywords"), 0)
    && NoMatch(html, Meta("og:video"), 0)
    && NoMatch(html, Meta("og:url"), 0)
    && NoMatch(html, Meta("og:videotime"), 0)
    && NoMatch(html, Meta("og:title"), 0)
    && NoMatch(html, Meta("og:image"), 0)
    && NoMatch(html, Meta("og:xhs:note_comment"), 0)
    && NoMatch(html, Meta("og:xhs:note_like"), 0)
    && NoMatch(html, Meta("og:xhs:note_collect"), 0)
  }

  /** The extraction half of `scrape`: every field is captured from the
      whole document independently; a field whose pattern does not match
      is empty. The note id has no `/`, there is one image per `og:image`
      match, and at most one download. */
  function Extract(html: string): (r: RednoteResult)
    ensures '/' !in r.noteId
    ensures IsTrimmed(r.title) && IsTrimmed(r.desc) && IsTrimmed(r.keywords) && IsTrimmed(r.duration)
    ensures |r.images| == |AllSpans(html, Meta("og:image"), 0)|
    ensures |r.downloads| <= 1
  {
    var title := CaptureSingle(html, Title);
    var desc := CaptureSingle(html, Meta("description"));
    var keywords := CaptureSingle(html, Meta("keywords"));
    var videoUrl := CaptureSingle(html, Meta("og:video"));
    var ogUrl := CaptureSingle(html, Meta("og:url"));
    var noteId := NoteId(ogUrl);
    var duration := CaptureSingle(html, Meta("og:videotime"));
    var ogTitle := CaptureSingle(html, Meta("og:title"));
    var nickname := Nickname(ogTitle);
    var images := CaptureMulti(html, Meta("og:image"));
    var comments := CaptureSingle(html, Meta("og:xhs:note_comment"));
    var likes := CaptureSingle(html, Meta("og:xhs:note_like"));
    var collects := CaptureSingle(html, Meta("og:xhs:note_collect"));
    RednoteResult(
      noteId, nickname, title, desc, keywords, duration,
      Engagement(likes, comments, collects),
      images, Downloads(videoUrl))
  }

  /** Why a fetch failed: building the HTTP client, sending the request, or
      reading the response body. Each carries the library's description. */
  datatype FetchError = BuildClient(detail: string) | Request(detail: string) | ReadBody(detail: string)

  /** The message `scrape` reports for a failed fetch. */
  function FetchErrorMessage(e: FetchError): string {
    match e
    case BuildClient(d) => "Build client error: " + d
    case Request(d) => "Request failed: " + d
    case ReadBody(d) => "Read HTML failed: " + d
  }

  /** `scrape`: fetch the page, then extract from its HTML. A failed fetch
      is reported as its message; extraction itself never fails. */
  function Scrape(fetch: string -> Result<string, FetchError>, url: string): (r: Result<RednoteResult, string>)
    ensures r.Err? <==> fetch(url).Err?
    ensures r.Ok? ==> r.value == Extract(fetch(url).value)
    ensures r.Err? ==> r.error == FetchErrorMessage(fetch(url).error)
  {
    match fetch(url)
    case Ok(html) => Ok(Extract(html))
    case Err(e) => Err(FetchErrorMessage(e))
  }

  /** Extraction is total and degrades to empty fields: on a page where no
      pattern matches, every field of the record is empty. */
  lemma ExtractWithoutMatches(html: string)
    requires NoFieldMatches(html)
    ensures Extract(html) == EmptyResult
  {
    CaptureMultiStartsWithSingle(html, Meta("og:image"));
    NoteIdEdgeCases("");
  }

  /** In particular a text without any `<` (the empty string, plain text)
      gives the all-empty record. */
  lemma {:induction false} ExtractWithoutTags(html: string)
    requires '<' !in html
    ensures Extract(html) == EmptyResult
  {
    NoTagNoCapture(html, Title);
    NoTagNoCapture(html, Meta("description"));
    NoTagNoCapture(html, Meta("keywords"));
    NoTagNoCapture(html, Meta("og:video"));
    NoTagNoCapture(html, Meta("og:url"));
    NoTagNoCapture(html, Meta("og:videotime"));
    NoTagNoCapture(html, Meta("og:title"));
    NoTagNoCapture(html, Meta("og:image"));
    NoTagNoCapture(html, Meta("og:xhs:note_comment"));
    NoTagNoCapture(html, Meta("og:xhs:note_like"));
    NoTagNoCapture(html, Meta("og:xhs:note_collect"));
    ExtractWithoutMatches(html);
  }

  /** The lazy captures stop at the first quote, so no field taken from a
      meta tag (nor the note id and nickname cut from them, nor the image
      and download URLs) contains a `"`. */
  lemma ExtractFieldsHaveNoQuote(html: string)
    ensures var r := Extract(html);
            && '"' !in r.noteId && '"' !in r.nickname
            && '"' !in r.desc && '"' !in r.keywords && '"' !in r.duration
            && '"' !in r.engagement.likes && '"' !in r.engagement.comments && '"' !in r.engagement.collects
            && (forall k :: 0 <= k < |r.images| ==> '"' !in r.images[k])
            && (forall d :: d in r.downloads ==> '"' !in d.url)
  {
    MetaCapturesHaveNoQuote(html, "description");
    MetaCapturesHaveNoQuote(html, "keywords");
    MetaCapturesHaveNoQuote(html, "og:video");
    MetaCapturesHaveNoQuote(html, "og:url");
    MetaCapturesHaveNoQuote(html, "og:videotime");
    MetaCapturesHaveNoQuote(html, "og:title");
    MetaCapturesHaveNoQuote(html, "og:image");
    MetaCapturesHaveNoQuote(html, "og:xhs:note_comment");
    MetaCapturesHaveNoQuote(html, "og:xhs:note_like");
    MetaCapturesHaveNoQuote(html, "og:xhs:note_collect");
    var ogUrl := CaptureSingle(html, Meta("og:url"));
    var ogTitle := CaptureSingle(html, Meta("og:title"));
    assert forall ch :: ch in NoteId(ogUrl) ==> ch in ogUrl;
    assert forall ch :: ch in Nickname(ogTitle) ==> ch in ogTitle;
  }

  /** The title stops at the first `</title>`: it contains no case variant
      of `</title>`. */
  lemma ExtractTitleHasNoClose(html: string)
    ensures forall k :: !StartsWithCI(Extract(html).title, k, TitlePattern.TitleClose)
  {
    forall k ensures !StartsWithCI(Extract(html).title, k, TitlePattern.TitleClose) {
      TitleCaptureHasNoClose(html, k);
    }
  }

  /** The fields taken whole from a capture are trimmed. */
  lemma ExtractFieldsAreTrimmed(html: string)
    ensures var r := Extract(html);
            && IsTrimmed(r.title) && IsTrimmed(r.desc) && IsTrimmed(r.keywords) && IsTrimmed(r.duration)
            && IsTrimmed(r.engagement.likes) && IsTrimmed(r.engagement.comments) && IsTrimmed(r.engagement.collects)
            && (forall k :: 0 <= k < |r.images| ==> IsTrimmed(r.images[k]))
            && (forall d :: d in r.downloads ==> IsTrimmed(d.url) && d.url != "")
  {
  }

  /** There is one download exactly when the page names a non-empty
      `og:video`, and it is that URL in the original quality. */
  lemma ExtractDownloads(html: string)
    ensures var video := CaptureSingle(html, Meta("og:video"));
            && (video != "" ==> Extract(html).downloads == [Download(OriginalQuality, video)])
            && (video == "" ==> Extract(html).downloads == [])
  {
  }

  /** `images` lists the `og:image` matches in document order, one entry per
      match, without removing duplicates, and is empty exactly when no
      `og:image` tag matches. */
  lemma ExtractImages(html: string, k: nat)
    requires k < |Extract(html).images|
    ensures var spans := AllSpans(html, Meta("og:image"), 0);
            && |Extract(html).images| == |spans|
            && Reports(html, Meta("og:image"), SearchStart(0, spans, k), spans[k])
            && Extract(html).images[k] == Trim(Captured(html, spans[k]))
  {
    CaptureMultiEntry(html, Meta("og:image"), k);
  }

  /** The note id is the text after the last `/` of `og:url`. */
  lemma NoteIdAfterLastSlash(ogUrl: string, pre: string, id: string)
    requires ogUrl == pre + "/" + id && '/' !in id
    ensures NoteId(ogUrl) == id
  {
    AfterLastUnique(ogUrl, '/', pre, id);
  }

  /** Without a `/` the note id is the whole `og:url`; when `og:url` is
      empty or ends in `/` it is empty. */
  lemma NoteIdEdgeCases(ogUrl: string)
    ensures '/' !in ogUrl ==> NoteId(ogUrl) == ogUrl
    ensures ogUrl == "" || ogUrl[|ogUrl| - 1] == '/' ==> NoteId(ogUrl) == ""
  {
    if '/' !in ogUrl {
      assert ogUrl == ogUrl[0..];
    }
    if |ogUrl| > 0 && ogUrl[|ogUrl| - 1] == '/' {
      AfterLastUnique(ogUrl, '/', ogUrl[..|ogUrl| - 1], "");
    }
  }

  /** The note id of a canonical note URL. */
  lemma NoteIdOfNoteUrl()
    ensures NoteId("https://www.xiaohongshu.com/explore/64abc123") == "64abc123"
  {
    NoteIdAfterLastSlash("https://www.xiaohongshu.com/explore/64abc123", "https://www.xiaohongshu.com/explore", "64abc123");
  }

  /** The nickname is the text before the first " - " of `og:title`, and the
      whole `og:title` when it has no " - ". */
  lemma NicknameBeforeSeparator(ogTitle: string, name: string, rest: string)
    requires ogTitle == name + TitleSeparator + rest
    requires forall m :: 0 <= m < |name| ==> !OccursAt(ogTitle, m, TitleSeparator)
    ensures Nickname(ogTitle) == name
  {
    BeforeFirstUnique(ogTitle, TitleSeparator, name, rest);
  }

  /** A title without " - " is its own nickname. */
  lemma NicknameWithoutSeparator(ogTitle: string)
    requires forall m :: 0 <= m <= |ogTitle| ==> !OccursAt(ogTitle, m, TitleSeparator)
    ensures Nickname(ogTitle) == ogTitle
  {
    BeforeFirstAbsent(ogTitle, TitleSeparator);
  }

  /** A name without spaces followed by the separator is the nickname. */
  lemma NicknameOfSpacelessName(name: string, rest: string)
    requires ' ' !in name
    ensures Nickname(name + TitleSeparator + rest) == name
  {
    var t := name + TitleSeparator + rest;
    forall m | 0 <= m < |name| ensures !OccursAt(t, m, TitleSeparator) {
      assert t[m] == name[m];
    }
    NicknameBeforeSeparator(t, name, rest);
  }

  /** The nickname of a typical "author - note" title. */
  lemma NicknameOfAuthorTitle()
    ensures Nickname("Alice - My Trip") == "Alice"
  {
    assert "Alice - My Trip" == "Alice" + TitleSeparator + "My Trip";
    assert ' ' !in "Alice";
    NicknameOfSpacelessName("Alice", "My Trip");
  }
}

=== FILE: server.dfy ===
/**
 The HTTP side of the service: `process_url`, which both the GET and the
 POST handler of `/api/rednote` call, the JSON documents it answers with,
 and the listening port `main` computes from the `PORT` variable.
 */
module Server {
  import opened Common
  import opened Scraper
  import UrlValidator

  const StatusOk: nat := 200
  const StatusBadRequest: nat := 400
  const InvalidUrlMessage: string := "Invalid Xiaohongshu URL"
  const DefaultPort: nat := 8080
  const MaxPort: nat := 65535

  /** JSON values as the responses carry them. */
  datatype Json = JString(str: string) | JBool(flag: bool) | JArray(items: seq<Json>) | JObject(fields: map<string, Json>)

  /** A response: its HTTP status and its JSON body. */
  datatype Response = Response(status: nat, body: Json)

  /** The request parameters, from the query string (GET) or the JSON body (POST). */
  datatype Params = Params(url: string)

  /** A list of strings as a JSON array of strings, in order. */
  function StringsJson(ss: seq<string>): (j: Json)
    ensures j.JArray? && |j.items| == |ss|
  {
    if |ss| == 0 then JArray([])
    else JArray(StringsJson(ss[..|ss| - 1]).items + [JString(ss[|ss| - 1])])
  }

  /** A download as the object `{"quality": …, "url": …}`. */
  function DownloadJson(d: Download): Json {
    JObject(map["quality" := JString(d.quality), "url" := JString(d.url)])
  }

  /** A list of downloads as a JSON array of download objects, in order. */
  function DownloadsJson(ds: seq<Download>): (j: Json)
    ensures j.JArray? && |j.items| == |ds|
  {
    if |ds| == 0 then JArray([])
    else JArray(DownloadsJson(ds[..|ds| - 1]).items + [DownloadJson(ds[|ds| - 1])])
  }

  /** The keys of a serialized `RednoteResult`: one per field, with the
      note id renamed `noteId`. */
  const ResultKeys: set<string> :=
    {"noteId", "nickname", "title", "desc", "keywords", "duration", "engagement", "images", "downloads"}

  /** The fields a `RednoteResult` serializes to, one key per field. None is
      called `status`, so adding the status flag never overwrites a field;
      `ResultRoundTrip` shows each key holds its field's value. */
  function ResultFields(r: RednoteResult): (m: map<string, Json>)
    ensures m.Keys == ResultKeys && "status" !in m
  {
    map[
      "noteId" := JString(r.noteId),
      "nickname" := JString(r.nickname),
      "title" := JString(r.title),
      "desc" := JString(r.desc),
      "keywords" := JString(r.keywords),
      "duration" := JString(r.duration),
      "engagement" := JObject(map[
        "likes" := JString(r.engagement.likes),
        "comments" := JString(r.engagement.comments),
        "collects" := JString(r.engagement.collects)]),
      "images" := StringsJson(r.images),
      "downloads" := DownloadsJson(r.downloads)]
  }

  /** The body of every failed request. */
  function ErrorBody(message: string): (j: Json)
    ensures StatusFlag(j) == Some(false) && ErrorMessage(j) == Some(message)
  {
    JObject(map["status" := JBool(false), "error" := JString(message)])
  }

  /** The body of a successful request: the result's fields and
      `"status": true`. */
  function SuccessBody(data: RednoteResult): (j: Json)
    ensures StatusFlag(j) == Some(true)
    ensures j.JObject? && j.fields.Keys == ResultKeys + {"status"}
  {
    JObject(ResultFields(data)["status" := JBool(true)])
  }

  /** `process_url`: reject a URL the gate refuses without fetching it;
      otherwise scrape, answering 200 with the result's fields plus
      `"status": true`, or 400 with the scrape error. */
  function ProcessUrl(fetch: string -> Result<string, FetchError>, url: string): (r: Response)
    ensures r.status == StatusOk || r.status == StatusBadRequest
    ensures !UrlValidator.IsValidRednoteUrl(url) ==> r == Response(StatusBadRequest, ErrorBody(InvalidUrlMessage))
    ensures r.status == StatusOk <==> UrlValidator.IsValidRednoteUrl(url) && fetch(url).Ok?
    ensures StatusFlag(r.body) == Some(r.status == StatusOk)
  {
    if !UrlValidator.IsValidRednoteUrl(url) then
      Response(StatusBadRequest, ErrorBody(InvalidUrlMessage))
    else
      match Scrape(fetch, url)
      case Ok(data) => Response(StatusOk, SuccessBody(data))
      case Err(message) => Response(StatusBadRequest, ErrorBody(message))
  }

  /** `GET /api/rednote?url=…`: the query's URL is gated and scraped. */
  function HandleGet(fetch: string -> Result<string, FetchError>, query: Params): (r: Response)
    ensures !UrlValidator.IsValidRednoteUrl(query.url) ==> r == Response(StatusBadRequest, ErrorBody(InvalidUrlMessage))
    ensures r.status == StatusOk <==> UrlValidator.IsValidRednoteUrl(query.url) && fetch(query.url).Ok?
  {
    ProcessUrl(fetch, query.url)
  }

  /** `POST /api/rednote` with body `{"url": …}`: the body's URL is gated
      and scraped. */
  function HandlePost(fetch: string -> Result<string, FetchError>, body: Params): (r: Response)
    ensures !UrlValidator.IsValidRednoteUrl(body.url) ==> r == Response(StatusBadRequest, ErrorBody(InvalidUrlMessage))
    ensures r.status == StatusOk <==> UrlValidator.IsValidRednoteUrl(body.url) && fetch(body.url).Ok?
  {
    ProcessUrl(fetch, body.url)
  }

  // Reading the responses back

  /** The `status` flag of a body, if it has one. */
  function StatusFlag(j: Json): Option<bool> {
    if j.JObject? && "status" in j.fields && j.fields["status"].JBool? then Some(j.fields["status"].flag) else None
  }

  /** The `error` message of a body, if it has one. */
  function ErrorMessage(j: Json): Option<string> {
    if j.JObject? && "error" in j.fields && j.fields["error"].JString? then Some(j.fields["error"].str) else None
  }

  /** The string stored under `key`, if there is one. */
  function StringField(m: map<string, Json>, key: string): Option<string> {
    if key in m && m[key].JString? then Some(m[key].str) else None
  }

  /** The strings of a JSON array, or None if an item is not a string. */
  function ReadStrings(items: seq<Json>): Option<seq<string>> {
    if |items| == 0 then Some([])
    else
      match ReadStrings(items[..|items| - 1])
      case None => None
      case Some(ss) => if items[|items| - 1].JString? then Some(ss + [items[|items| - 1].str]) else None
  }

  /** A download read back from its object, or None if a key is missing. */
  function ReadDownload(j: Json): Option<Download> {
    if !j.JObject? then None
    else
      match (StringField(j.fields, "quality"), StringField(j.fields, "url"))
      case (Some(q), Some(u)) => Some(Download(q, u))
      case _ => None
  }

  /** The downloads of a JSON array, or None if an item is not one. */
  function ReadDownloads(items: seq<Json>): Option<seq<Download>> {
    if |items| == 0 then Some([])
    else
      match (ReadDownloads(items[..|items| - 1]), ReadDownload(items[|items| - 1]))
      case (Some(ds), Some(d)) => Some(ds + [d])
      case _ => None
  }

  /** The engagement counters read back from their object. */
  function ReadEngagement(j: Json): Option<Engagement> {
    if !j.JObject? then None
    else
      var likes := StringField(j.fields, "likes");
      var comments := StringField(j.fields, "comments");
      var collects := StringField(j.fields, "collects");
      if likes.Some? && comments.Some? && collects.Some?
      then Some(Engagement(likes.value, comments.value, collects.value))
      else None
  }

  /** The items of the array stored under `key`, or none. */
  function ArrayField(m: map<string, Json>, key: string): seq<Json> {
    if key in m && m[key].JArray? then m[key].items else []
  }

  /** A `RednoteResult` read back from the fields of a JSON object, the way a
      client of the API parses a successful response. */
  function ReadResult(j: Json): Option<RednoteResult> {
    if !j.JObject? then None
    else
      var m := j.fields;
      var noteId := StringField(m, "noteId");
      var nickname := StringField(m, "nickname");
      var title := StringField(m, "title");
      var desc := StringField(m, "desc");
      var keywords := StringField(m, "keywords");
      var duration := StringField(m, "duration");
      var engagement := if "engagement" in m then ReadEngagement(m["engagement"]) else None;
      var images := ReadStrings(ArrayField(m, "images"));
      var downloads := ReadDownloads(ArrayField(m, "downloads"));
      if && noteId.Some? && nickname.Some? && title.Some? && desc.Some? && keywords.Some?
         && duration.Some? && engagement.Some? && images.Some? && downloads.Some?
      then Some(RednoteResult(noteId.value, nickname.value, title.value, desc.value, keywords.value,
                              duration.value, engagement.value, images.value, downloads.value))
      else None
  }

  // What the responses promise

  /** Reading the strings of a serialized list gives the list back. */
  lemma {:induction false} StringsRoundTrip(ss: seq<string>)
    ensures ReadStrings(StringsJson(ss).items) == Some(ss)
  {
    if |ss| > 0 {
      StringsRoundTrip(ss[..|ss| - 1]);
      var items := StringsJson(ss).items;
      assert items[..|items| - 1] == StringsJson(ss[..|ss| - 1]).items;
      assert ss[..|ss| - 1] + [ss[|ss| - 1]] == ss;
    }
  }

  /** Reading the downloads of a serialized list gives the list back. */
  lemma {:induction false} DownloadsRoundTrip(ds: seq<Download>)
    ensures ReadDownloads(DownloadsJson(ds).items) == Some(ds)
  {
    if |ds| > 0 {
      DownloadsRoundTrip(ds[..|ds| - 1]);
      var items := DownloadsJson(ds).items;
      assert items[..|items| - 1] == DownloadsJson(ds[..|ds| - 1]).items;
      assert ds[..|ds| - 1] + [ds[|ds| - 1]] == ds;
    }
  }

  /** The string fields of a serialized result are the record's own values. */
  lemma ResultStringFields(r: RednoteResult, m: map<string, Json>)
    requires m == ResultFields(r)["status" := JBool(true)] || m == ResultFields(r)
    ensures StringField(m, "noteId") == Some(r.noteId)
    ensures StringField(m, "nickname") == Some(r.nickname)
    ensures StringField(m, "title") == Some(r.title)
    ensures StringField(m, "desc") == Some(r.desc)
    ensures StringField(m, "keywords") == Some(r.keywords)
    ensures StringField(m, "duration") == Some(r.duration)
  {
    ResultIdentityFields(r, m);
    ResultTextFields(r, m);
  }

  /** The identifying string fields of a serialized result. */
  lemma ResultIdentityFields(r: RednoteResult, m: map<string, Json>)
    requires m == ResultFields(r)["status" := JBool(true)] || m == ResultFields(r)
    ensures StringField(m, "noteId") == Some(r.noteId)
    ensures StringField(m, "nickname") == Some(r.nickname)
    ensures StringField(m, "title") == Some(r.title)
  {
  }

  /** The descriptive string fields of a serialized result. */
  lemma ResultTextFields(r: RednoteResult, m: map<string, Json>)
    requires m == ResultFields(r)["status" := JBool(true)] || m == ResultFields(r)
    ensures StringField(m, "desc") == Some(r.desc)
    ensures StringField(m, "keywords") == Some(r.keywords)
    ensures StringField(m, "duration") == Some(r.duration)
  {
  }

  /** The nested fields of a serialized result hold the record's engagement,
      images and downloads. */
  lemma ResultNestedFields(r: RednoteResult, m: map<string, Json>)
    requires m == ResultFields(r)["status" := JBool(true)] || m == ResultFields(r)
    ensures "engagement" in m && ReadEngagement(m["engagement"]) == Some(r.engagement)
    ensures ArrayField(m, "images") == StringsJson(r.images).items
    ensures ArrayField(m, "downloads") == DownloadsJson(r.downloads).items
  {
  }

  /** A result survives serialization, with or without the `status` field
      the success response adds: every counter stays the string the page
      showed. */
  lemma ResultRoundTrip(r: RednoteResult)
    ensures ReadResult(JObject(ResultFields(r))) == Some(r)
    ensures ReadResult(JObject(ResultFields(r)["status" := JBool(true)])) == Some(r)
  {
    StringsRoundTrip(r.images);
    DownloadsRoundTrip(r.downloads);
    ResultStringFields(r, ResultFields(r));
    ResultStringFields(r, ResultFields(r)["status" := JBool(true)]);
    ResultNestedFields(r, ResultFields(r));
    ResultNestedFields(r, ResultFields(r)["status" := JBool(true)]);
  }

  /** A URL the gate refuses is answered without fetching: the answer is the
      same whatever the fetch would have done. */
  lemma InvalidUrlIsNotFetched(fetch: string -> Result<string, FetchError>, other: string -> Result<string, FetchError>, url: string)
    requires !UrlValidator.IsValidRednoteUrl(url)
    ensures ProcessUrl(fetch, url) == ProcessUrl(other, url)
    ensures ErrorMessage(ProcessUrl(fetch, url).body) == Some(InvalidUrlMessage)
  {
  }

  /** A failed scrape answers 400 with the scrape's message verbatim. */
  lemma ScrapeErrorIsReported(fetch: string -> Result<string, FetchError>, url: string)
    requires UrlValidator.IsValidRednoteUrl(url) && fetch(url).Err?
    ensures ProcessUrl(fetch, url).status == StatusBadRequest
    ensures StatusFlag(ProcessUrl(fetch, url).body) == Some(false)
    ensures ErrorMessage(ProcessUrl(fetch, url).body) == Some(Scrape(fetch, url).error)
  {
  }

  /** A successful scrape answers 200 with `"status": true` and exactly the
      extracted record, which a client reads back field for field. */
  lemma SuccessCarriesResult(fetch: string -> Result<string, FetchError>, url: string)
    requires UrlValidator.IsValidRednoteUrl(url) && fetch(url).Ok?
    ensures ProcessUrl(fetch, url).status == StatusOk
    ensures StatusFlag(ProcessUrl(fetch, url).body) == Some(true)
    ensures ReadResult(ProcessUrl(fetch, url).body) == Some(Extract(fetch(url).value))
  {
    var data := Extract(fetch(url).value);
    ResultRoundTrip(data);
  }

  /** The GET and the POST handler answer the same URL alike. */
  lemma GetAndPostAgree(fetch: string -> Result<string, FetchError>, query: Params, body: Params)
    requires query.url == body.url
    ensures HandleGet(fetch, query) == HandlePost(fetch, body)
  {
  }

  // The listening port

  /** `0` to `9`; Rust's integer parsing accepts no other digits. */
  predicate IsAsciiDigit(c: char) {
    '0' <= c <= '9'
  }

  /** The value of one decimal digit. */
  function DigitValue(c: char): nat
    requires IsAsciiDigit(c)
  {
    c as int - '0' as int
  }

  /** Every character of `ds` is an ASCII digit. */
  predicate AllDigits(ds: string) {
    forall k :: 0 <= k < |ds| ==> IsAsciiDigit(ds[k])
  }

  /** The value of a string of decimal digits. */
  function DigitsValue(ds: string): nat
    requires AllDigits(ds)
  {
    if |ds| == 0 then 0 else DigitsValue(ds[..|ds| - 1]) * 10 + DigitValue(ds[|ds| - 1])
  }

  /** Rust's `str::parse::<u16>`: an optional `+`, then one or more ASCII
      digits whose value fits in 16 bits. */
  function ParseU16(s: string): (r: Option<nat>)
    ensures r.Some? ==> r.value <= MaxPort
    ensures r.Some? ==> |s| > 0 && (s[0] == '+' || IsAsciiDigit(s[0])) && AllDigits(s[1..])
    ensures r.Some? && s[0] == '+' ==> |s| > 1
    ensures r.Some? ==> r.value == DigitsValue(if s[0] == '+' then s[1..] else s)
  {
    var ds := if |s| > 0 && s[0] == '+' then s[1..] else s;
    if |ds| == 0 || !AllDigits(ds) then None
    else if DigitsValue(ds) <= MaxPort then Some(DigitsValue(ds))
    else None
  }

  /** The port `main` binds: `PORT` when it is set and parses as a `u16`,
      8080 otherwise. */
  function Port(env: Option<string>): (p: nat)
    ensures p <= MaxPort
    ensures env.None? ==> p == DefaultPort
  {
    match env
    case None => DefaultPort
    case Some(s) =>
      match ParseU16(s)
      case Some(n) => n
      case None => DefaultPort
  }

  /** The decimal digits of `n`, without leading zeros. */
  function Decimal(n: nat): (ds: string)
    ensures |ds| > 0 && AllDigits(ds)
  {
    var d := ['0' + (n % 10) as char];
    if n < 10 then d else Decimal(n / 10) + d
  }

  /** Decimal notation is read back as the number it writes. */
  lemma {:induction false} DecimalRoundTrip(n: nat)
    ensures DigitsValue(Decimal(n)) == n
  {
    var ds := Decimal(n);
    if n >= 10 {
      DecimalRoundTrip(n / 10);
      assert ds[..|ds| - 1] == Decimal(n / 10);
    }
  }

  /** `PORT` set to any port number in decimal, with or without a `+`, is
      that port: `PortFromDigits` for the digits `Decimal` writes. */
  lemma PortFromDecimal(n: nat)
    requires n <= MaxPort
    ensures Port(Some(Decimal(n))) == n
    ensures Port(Some("+" + Decimal(n))) == n
  {
    DecimalRoundTrip(n);
    PortFromDigits(Decimal(n));
  }

  /** `PORT` set to any text of ASCII digits, leading zeros allowed, with or
      without one leading `+`: `parse::<u16>` reads its value, and a value
      too large for 16 bits is a parse error. */
  lemma ParseDigits(ds: string)
    requires |ds| > 0 && AllDigits(ds)
    ensures ParseU16(ds) == (if DigitsValue(ds) <= MaxPort then Some(DigitsValue(ds)) else None)
    ensures ParseU16("+" + ds) == ParseU16(ds)
  {
    assert ("+" + ds)[1..] == ds;
  }

  /** So `PORT` set to such a text is its value when that fits in 16 bits,
      and 8080 otherwise. */
  lemma PortFromDigits(ds: string)
    requires |ds| > 0 && AllDigits(ds)
    ensures Port(Some(ds)) == Port(Some("+" + ds))
    ensures Port(Some(ds)) == if DigitsValue(ds) <= MaxPort then DigitsValue(ds) else DefaultPort
  {
    ParseDigits(ds);
  }

  /** Leading zeros are read past: "08080" is 8080 and "+0080" is 80. */
  lemma PortWithLeadingZeros()
    ensures Port(Some("08080")) == 8080
    ensures Port(Some("+0080")) == 80
  {
    PortFromDigits("08080");
    PortFromDigits("0080");
    assert "08080"[..4] == "0808" && "0808"[..3] == "080" && "080"[..2] == "08" && "08"[..1] == "0";
    assert "0080"[..3] == "008" && "008"[..2] == "00" && "00"[..1] == "0";
  }

  /** `PORT` set to a decimal number too large for 16 bits falls back to
      8080: `PortFromDigits` for the digits `Decimal` writes. */
  lemma PortOutOfRange(n: nat)
    requires n > MaxPort
    ensures Port(Some(Decimal(n))) == DefaultPort
  {
    DecimalRoundTrip(n);
    PortFromDigits(Decimal(n));
  }

  /** `PORT` empty, signed negative, or not a number falls back to 8080. */
  lemma PortUnparseable(s: string)
    requires s == "" || s == "+" || (|s| > 0 && s[0] == '-') || (|s| > 0 && s[0] == ' ')
    ensures Port(Some(s)) == DefaultPort
  {
    if |s| > 0 && s[0] != '+' {
      assert !IsAsciiDigit(s[0]);
    }
  }
}

=== FILE: text.dfy ===
/**
 Character classes and string operations used by the scraper: Unicode
 whitespace, case-insensitive literal matching, `trim`, and the two
 `split` idioms (last piece after a character, first piece before a
 separator string).
 */
module Text {
  import opened Common

  /** Unicode White_Space: what Rust's `char::is_whitespace`, `str::trim`
      and the regex class `\s` treat as whitespace. */
  predicate IsWhitespace(c: char) {
    || ('\t' <= c <= '\r')
    || c == ' '
    || c == '\U{85}'
    || c == '\U{A0}'
    || c == '\U{1680}'
    || ('\U{2000}' <= c <= '\U{200A}')
    || c == '\U{2028}'
    || c == '\U{2029}'
    || c == '\U{202F}'
    || c == '\U{205F}'
    || c == '\U{3000}'
  }

  /** Whether `c` matches the pattern character `l` (written in lower case)
      under the simple case folding a `(?i)` pattern uses. For the ASCII
      letters the folding orbit is the letter, its upper case form, and for
      `k` the Kelvin sign, for `s` the long s. */
  predicate FoldEq(c: char, l: char) {
    || c == l
    || ('a' <= l <= 'z' && c as int == l as int - 32)
    || (l == 'k' && c == '\U{212A}')
    || (l == 's' && c == '\U{17F}')
  }

  /** `s` equals the lower-case literal `lit` up to case. */
  predicate EqualsCI(s: string, lit: string) {
    |s| == |lit| && forall k :: 0 <= k < |lit| ==> FoldEq(s[k], lit[k])
  }

  /** `lit` (lower case) occurs case-insensitively in `s` at offset `at`. */
  predicate StartsWithCI(s: string, at: int, lit: string) {
    0 <= at && at + |lit| <= |s| && EqualsCI(s[at .. at + |lit|], lit)
  }

  /** No character of `s[a..b]` equals `c`. */
  predicate NoneAre(s: string, a: int, b: int, c: char) {
    forall k :: a <= k < b && 0 <= k < |s| ==> s[k] != c
  }

  /** Index of the first `c` at or after `from`, or `|s|` when there is none. */
  function Find(s: string, c: char, from: nat): (k: nat)
    requires from <= |s|
    ensures from <= k <= |s|
    ensures k < |s| ==> s[k] == c
    ensures NoneAre(s, from, k, c)
    decreases |s| - from
  {
    if from == |s| || s[from] == c then from else Find(s, c, from + 1)
  }

  /** `Find` is the end of the longest `c`-free run starting at `from`. */
  lemma FindBoundsRun(s: string, c: char, from: nat, b: int)
    requires from <= b
    requires from <= |s|
    ensures NoneAre(s, from, b, c) && b <= |s| <==> b <= Find(s, c, from)
  {
  }

  /** A literal that begins with a character absent from `s` occurs nowhere in it. */
  lemma AbsentHeadNeverStarts(s: string, at: int, lit: string)
    requires |lit| > 0 && !('a' <= lit[0] <= 'z') && lit[0] !in s
    ensures !StartsWithCI(s, at, lit)
  {
    if 0 <= at && at + |lit| <= |s| {
      assert s[at .. at + |lit|][0] == s[at];
      assert s[at] in s;
    }
  }

  /** Each character of a case-insensitive occurrence folds to the literal's. */
  lemma StartsWithCIAt(s: string, at: int, lit: string, k: int)
    requires StartsWithCI(s, at, lit) && 0 <= k < |lit|
    ensures FoldEq(s[at + k], lit[k])
  {
    assert s[at .. at + |lit|][k] == s[at + k];
  }

  /** An occurrence is a run of characters each folding to the literal's. */
  lemma StartsWithCIFromChars(s: string, at: int, lit: string)
    requires 0 <= at && at + |lit| <= |s|
    requires forall x :: 0 <= x < |lit| ==> FoldEq(s[at + x], lit[x])
    ensures StartsWithCI(s, at, lit)
  {
    var w := s[at .. at + |lit|];
    forall x | 0 <= x < |lit|
      ensures FoldEq(w[x], lit[x])
    {
      assert w[x] == s[at + x];
    }
  }

  /** An occurrence inside the slice `s[lo..hi]` is one in `s`. */
  lemma StartsWithCISlice(s: string, lo: int, hi: int, k: int, lit: string)
    requires 0 <= lo <= hi <= |s| && StartsWithCI(s[lo .. hi], k, lit)
    ensures StartsWithCI(s, lo + k, lit)
  {
    var w := s[lo .. hi];
    forall x | 0 <= x < |lit|
      ensures FoldEq(s[lo + k + x], lit[x])
    {
      StartsWithCIAt(w, k, lit, x);
      assert w[k + x] == s[lo + k + x];
    }
    StartsWithCIFromChars(s, lo + k, lit);
  }

  /** An occurrence in a slice `r` of `s` taken at `lo` is one in `s`. */
  lemma OccurrenceInSlice(s: string, lo: nat, r: string, k: int, lit: string)
    requires lo + |r| <= |s| && r == s[lo .. lo + |r|] && StartsWithCI(r, k, lit)
    ensures StartsWithCI(s, lo + k, lit)
  {
    StartsWithCISlice(s, lo, lo + |r|, k, lit);
  }

  /** One character that does not fold to the literal's rules out an
      occurrence. */
  lemma MismatchAt(s: string, at: int, lit: string, k: int)
    requires 0 <= k < |lit| && 0 <= at + k < |s| && !FoldEq(s[at + k], lit[k])
    ensures !StartsWithCI(s, at, lit)
  {
    if StartsWithCI(s, at, lit) {
      StartsWithCIAt(s, at, lit, k);
    }
  }

  /** An occurrence of a literal without `c` ends before any `c` at or after
      its start, when `c` is a character without case variants. */
  lemma OccurrenceEndsBefore(s: string, at: int, lit: string, g: int, c: char)
    requires StartsWithCI(s, at, lit)
    requires at <= g < |s| && s[g] == c && c !in lit
    requires c in "<>=\""
    ensures at + |lit| <= g
  {
    if g < at + |lit| {
      StartsWithCIAt(s, at, lit, g - at);
    }
  }

  /** The least offset at or after `from` where `lit` occurs case-insensitively. */
  function FindCI(s: string, lit: string, from: nat): (r: Option<nat>)
    ensures r.Some? ==> from <= r.value && StartsWithCI(s, r.value, lit)
    ensures r.Some? ==> forall k :: from <= k < r.value ==> !StartsWithCI(s, k, lit)
    ensures r.None? ==> forall k :: from <= k ==> !StartsWithCI(s, k, lit)
    decreases |s| - from
  {
    if |s| < from + |lit| then None
    else if StartsWithCI(s, from, lit) then Some(from)
    else FindCI(s, lit, from + 1)
  }

  /** A string without leading or trailing whitespace. */
  predicate IsTrimmed(s: string) {
    |s| > 0 ==> !IsWhitespace(s[0]) && !IsWhitespace(s[|s| - 1])
  }

  /** Every character of `s[a..b]` is whitespace. */
  predicate AllWhitespace(s: string, a: int, b: int) {
    forall k :: a <= k < b && 0 <= k < |s| ==> IsWhitespace(s[k])
  }

  /** Number of leading whitespace characters of `s`. */
  function LeadingWhitespace(s: string): (n: nat)
    ensures n <= |s|
    ensures AllWhitespace(s, 0, n)
    ensures n < |s| ==> !IsWhitespace(s[n])
  {
    if |s| == 0 || !IsWhitespace(s[0]) then 0
    else
      var n := 1 + LeadingWhitespace(s[1..]);
      assert forall k :: 1 <= k < n ==> s[k] == s[1..][k - 1];
      n
  }

  /** Number of trailing whitespace characters of `s`. */
  function TrailingWhitespace(s: string): (n: nat)
    ensures n <= |s|
    ensures AllWhitespace(s, |s| - n, |s|)
    ensures n < |s| ==> !IsWhitespace(s[|s| - n - 1])
  {
    if |s| == 0 || !IsWhitespace(s[|s| - 1]) then 0
    else 1 + TrailingWhitespace(s[..|s| - 1])
  }

  /** Rust's `str::trim`: the slice of `s` between its leading and trailing
      whitespace. The result is that slice (it starts after exactly the
      leading whitespace and only whitespace follows it) and has no
      whitespace at either end. */
  function Trim(s: string): (r: string)
    ensures |r| <= |s|
    ensures LeadingWhitespace(s) + |r| <= |s|
    ensures r == s[LeadingWhitespace(s) .. LeadingWhitespace(s) + |r|]
    ensures AllWhitespace(s, LeadingWhitespace(s) + |r|, |s|)
    ensures IsTrimmed(r)
  {
    var a := LeadingWhitespace(s);
    var n := TrailingWhitespace(s[a..]);
    TrailingOfRest(s, a);
    s[a .. |s| - n]
  }

  /** The trailing whitespace of `s[a..]`, read in `s`. */
  lemma TrailingOfRest(s: string, a: nat)
    requires a <= |s|
    ensures var n := TrailingWhitespace(s[a..]);
            && AllWhitespace(s, |s| - n, |s|)
            && (n < |s| - a ==> !IsWhitespace(s[|s| - n - 1]))
  {
    var t := s[a..];
    assert forall k :: a <= k < |s| ==> s[k] == t[k - a];
  }

  /** Trimming is determined by the whitespace at the two ends: any slice
      `s[a..b]` preceded and followed only by whitespace, and not itself
      starting or ending in whitespace, is `Trim(s)`. */
  lemma {:induction false} TrimUnique(s: string, a: nat, b: nat)
    requires a <= b <= |s|
    requires AllWhitespace(s, 0, a) && AllWhitespace(s, b, |s|)
    requires IsTrimmed(s[a..b])
    ensures Trim(s) == s[a..b]
  {
    var r := Trim(s);
    var la := LeadingWhitespace(s);
    if a == b {
      // s is all whitespace, so nothing survives the trim
      assert AllWhitespace(s, 0, |s|);
    } else {
      assert !IsWhitespace(s[a]) && !IsWhitespace(s[b - 1]);
      assert la == a;
      assert |r| > 0;
      assert r[|r| - 1] == s[la + |r| - 1];
      assert la + |r| == b;
    }
  }

  /** Trimming leaves trimmed text as it is. */
  lemma TrimOfTrimmed(s: string)
    requires IsTrimmed(s)
    ensures Trim(s) == s
  {
    TrimUnique(s, 0, |s|);
    assert s[0..|s|] == s;
  }

  /** Trimming twice is trimming once. */
  lemma TrimIdempotent(s: string)
    ensures Trim(Trim(s)) == Trim(s)
  {
    var r := Trim(s);
    TrimUnique(r, 0, |r|);
    assert r[0..|r|] == r;
  }

  /** Rust's `s.split(c).next_back()`: the text after the last `c`, or the
      whole of `s` when it contains no `c`. */
  function AfterLast(s: string, c: char): (r: string)
    ensures |r| <= |s|
    ensures r == s[|s| - |r|..]
    ensures c !in r
    ensures |r| < |s| ==> s[|s| - |r| - 1] == c
    decreases |s|
  {
    if |s| == 0 then ""
    else if s[|s| - 1] == c then ""
    else
      var r := AfterLast(s[..|s| - 1], c);
      assert s[..|s| - 1][|s| - 1 - |r| ..] + [s[|s| - 1]] == s[|s| - 1 - |r| ..];
      r + [s[|s| - 1]]
  }

  /** The separator `sep` occurs in `s` at offset `at`. */
  predicate OccursAt(s: string, at: int, sep: string) {
    0 <= at && at + |sep| <= |s| && s[at .. at + |sep|] == sep
  }

  /** An occurrence past the first character is one in the tail. */
  lemma OccursAtTail(s: string, m: int, sep: string)
    requires 1 <= m <= |s|
    ensures OccursAt(s, m, sep) == OccursAt(s[1..], m - 1, sep)
  {
    if m + |sep| <= |s| {
      var a, b := s[m .. m + |sep|], s[1..][m - 1 .. m - 1 + |sep|];
      forall x | 0 <= x < |sep| ensures a[x] == b[x] {
        assert a[x] == s[m + x] && b[x] == s[1..][m - 1 + x];
      }
      assert a == b;
    }
  }

  /** Rust's `s.split(sep).next()` for a non-empty `sep`: the text before the
      first occurrence of `sep`, or all of `s` when `sep` does not occur. */
  function BeforeFirst(s: string, sep: string): (r: string)
    requires |sep| > 0
    ensures |r| <= |s| && r == s[..|r|]
    ensures forall m :: 0 <= m < |r| ==> !OccursAt(s, m, sep)
    ensures |r| < |s| ==> OccursAt(s, |r|, sep)
    decreases |s|
  {
    if |s| == 0 then ""
    else if OccursAt(s, 0, sep) then ""
    else
      var r := BeforeFirst(s[1..], sep);
      assert forall m :: 1 <= m <= |r| ==> OccursAt(s, m, sep) == OccursAt(s[1..], m - 1, sep) by {
        forall m | 1 <= m <= |r| ensures OccursAt(s, m, sep) == OccursAt(s[1..], m - 1, sep) {
          OccursAtTail(s, m, sep);
        }
      }
      [s[0]] + r
  }

  /** `AfterLast` is determined by the last `c`: for `s == pre + [c] + r` with
      no `c` in `r`, it is `r`. */
  lemma AfterLastUnique(s: string, c: char, pre: string, r: string)
    requires s == pre + [c] + r
    requires c !in r
    ensures AfterLast(s, c) == r
  {
    var a := AfterLast(s, c);
    assert |a| == |r| by {
      assert forall k :: |pre| < k < |s| ==> s[k] == r[k - |pre| - 1];
      assert s[|pre|] == c;
    }
  }

  /** `BeforeFirst` is determined by the first occurrence of `sep`: for
      `s == r + sep + t` where `sep` occurs nowhere before `|r|`, it is `r`. */
  lemma BeforeFirstUnique(s: string, sep: string, r: string, t: string)
    requires |sep| > 0
    requires s == r + sep + t
    requires forall m :: 0 <= m < |r| ==> !OccursAt(s, m, sep)
    ensures BeforeFirst(s, sep) == r
  {
    var b := BeforeFirst(s, sep);
    assert s[|r| .. |r| + |sep|] == sep;
    assert OccursAt(s, |r|, sep);
  }

  /** Without an occurrence of `sep`, `BeforeFirst` is the whole text. */
  lemma BeforeFirstAbsent(s: string, sep: string)
    requires |sep| > 0
    requires forall m :: 0 <= m <= |s| ==> !OccursAt(s, m, sep)
    ensures BeforeFirst(s, sep) == s
  {
  }
}

=== FILE: title_pattern.dfy ===
/**
 The title pattern of the scraper, `(?is)<title>(.*?)</title>`, as a
 leftmost-first matcher. A match is fixed by the offset `start` of
 `<title>` and the offset `close` of the `</title>` that ends it; the
 capture is `s[start + 7 .. close]`.
 */
module TitlePattern {
  import opened Common
  import opened Text

  const TitleOpen: string := "<title>"
  const TitleClose: string := "</title>"

  /** Offsets of one match of the pattern. */
  datatype TitleMatch = TitleMatch(start: nat, close: nat) {
    /** Where the capture group begins. */
    function CaptureStart(): nat { start + |TitleOpen| }
  }

  /** `s` matches the pattern at these offsets: `<title>`, any text, `</title>`,
      both tags compared case-insensitively. */
  ghost predicate IsMatch(s: string, p: int, k: int) {
    StartsWithCI(s, p, TitleOpen) && p + |TitleOpen| <= k && StartsWithCI(s, k, TitleClose)
  }

  /** No match starts at or after `from`. */
  ghost predicate NoMatchFrom(s: string, from: int) {
    forall p, k :: from <= p ==> !IsMatch(s, p, k)
  }

  /** `m` is the match a backtracking engine reports when it searches from
      `from`: the leftmost start, then the shortest lazy `(.*?)`. */
  ghost predicate IsLeftmostFirst(s: string, from: int, m: TitleMatch) {
    && from <= m.start
    && IsMatch(s, m.start, m.close)
    && (forall p, k :: from <= p < m.start ==> !IsMatch(s, p, k))
    && (forall k :: k < m.close ==> !IsMatch(s, m.start, k))
  }

  /** A `<title>` at `p` that some later `</title>` closes. */
  predicate StartAt(s: string, p: int) {
    StartsWithCI(s, p, TitleOpen) && FindCI(s, TitleClose, p + |TitleOpen|).Some?
  }

  /** The least `p` in `[from, |s|]` with `StartAt(s, p)`. */
  function FirstStart(s: string, from: nat): (r: Option<nat>)
    requires from <= |s|
    ensures r.Some? ==> from <= r.value <= |s| && StartAt(s, r.value)
    ensures r.Some? ==> forall p :: from <= p < r.value ==> !StartAt(s, p)
    ensures r.None? ==> forall p :: from <= p <= |s| ==> !StartAt(s, p)
    decreases |s| - from
  {
    if StartAt(s, from) then Some(from)
    else if from == |s| then None
    else FirstStart(s, from + 1)
  }

  /** The first match at or after `from`, searching as the regex engine does. */
  function FindMatch(s: string, from: nat): (r: Option<TitleMatch>)
    requires from <= |s|
    ensures r.Some? ==> from <= r.value.start < r.value.CaptureStart() <= r.value.close
    ensures r.Some? ==> r.value.close + |TitleClose| <= |s|
  {
    match FirstStart(s, from)
    case None => None
    case Some(p) => Some(TitleMatch(p, FindCI(s, TitleClose, p + |TitleOpen|).value))
  }

  /** `FindMatch` reports exactly the leftmost-first match, and reports none
      exactly when no match starts at or after `from`. */
  lemma {:induction false} FindMatchIsLeftmostFirst(s: string, from: nat)
    requires from <= |s|
    ensures FindMatch(s, from).Some? ==> IsLeftmostFirst(s, from, FindMatch(s, from).value)
    ensures FindMatch(s, from).None? <==> NoMatchFrom(s, from)
  {
    match FirstStart(s, from)
    case None =>
      forall p, k | from <= p
        ensures !IsMatch(s, p, k)
      {
        if IsMatch(s, p, k) {
          assert p <= |s| && StartAt(s, p);
        }
      }
    case Some(p) =>
      var m := FindMatch(s, from).value;
      forall p', k | from <= p' < p
        ensures !IsMatch(s, p', k)
      {
        if IsMatch(s, p', k) {
          assert StartAt(s, p');
        }
      }
      assert IsLeftmostFirst(s, from, m);
  }

  /** The lazy group stops at the first `</title>`: no case variant of
      `</title>` occurs inside the capture. */
  lemma CaptureHasNoClose(s: string, from: int, m: TitleMatch, k: int)
    requires IsLeftmostFirst(s, from, m)
    ensures !StartsWithCI(s[m.CaptureStart() .. m.close], k, TitleClose)
  {
    var c := s[m.CaptureStart() .. m.close];
    if StartsWithCI(c, k, TitleClose) {
      StartsWithCISlice(s, m.CaptureStart(), m.close, k, TitleClose);
      assert IsMatch(s, m.start, m.CaptureStart() + k);
    }
  }
}

=== FILE: url_validator.dfy ===
/**
 `is_valid_rednote_url`: the only gate before a URL is fetched. The
 pattern is `(?i)^https?://(.*?)?(xhslink\.com|xiaohongshu\.com)/[^\s]+$`.
 Its optional prefix group admits any text without a line feed, so the
 gate checks that one of the two domains followed by `/` occurs somewhere
 after the scheme, not that it is the host.
 */
module UrlValidator {
  import opened Common
  import opened Text

  const ShortLinkDomain: string := "xhslink.com"
  const MainDomain: string := "xiaohongshu.com"

  /** `u` splits as the pattern reads it: a scheme `http` or `https`, `://`,
      a prefix without line feeds, one of the two domains, `/`, and a
      non-empty whitespace-free rest running to the end. Letters compare
      case-insensitively. */
  ghost predicate IsUrlShape(u: string, scheme: string, prefix: string, domain: string, path: string) {
    && u == scheme + "://" + prefix + domain + "/" + path
    && (EqualsCI(scheme, "http") || EqualsCI(scheme, "https"))
    && '\n' !in prefix
    && (EqualsCI(domain, ShortLinkDomain) || EqualsCI(domain, MainDomain))
    && |path| > 0
    && forall k :: 0 <= k < |path| ==> !IsWhitespace(path[k])
  }

  /** The URL pattern matches `u`. */
  ghost predicate MatchesUrlPattern(u: string) {
    exists scheme, prefix, domain, path :: IsUrlShape(u, scheme, prefix, domain, path)
  }

  /** The length of the `http://` or `https://` prefix of `u`, if any. */
  function SchemeLength(u: string): (r: Option<nat>)
    ensures r.Some? ==> r.value <= |u|
  {
    if StartsWithCI(u, 0, "https://") then Some(8)
    else if StartsWithCI(u, 0, "http://") then Some(7)
    else None
  }

  /** `u[m..]` is `/` and at least one more character, none of them whitespace. */
  predicate PathAt(u: string, m: int) {
    && 0 <= m && m + 1 < |u| && u[m] == '/'
    && forall k :: m + 1 <= k < |u| ==> !IsWhitespace(u[k])
  }

  /** One of the two domains at `k`, followed by a path to the end. */
  predicate DomainPathAt(u: string, k: int) {
    || (StartsWithCI(u, k, ShortLinkDomain) && PathAt(u, k + |ShortLinkDomain|))
    || (StartsWithCI(u, k, MainDomain) && PathAt(u, k + |MainDomain|))
  }

  /** Some `k' >= k` with no line feed in `u[k..k']` has a domain and path at `k'`. */
  predicate HostFrom(u: string, k: nat)
    decreases |u| - k
  {
    k <= |u| && (DomainPathAt(u, k) || (k < |u| && u[k] != '\n' && HostFrom(u, k + 1)))
  }

  /** The shortest URL the pattern accepts, `http://xhslink.com/x`, has this
      many characters. */
  const MinUrlLength: nat := 20

  /** `is_valid_rednote_url`. An accepted URL starts with an `http://` or
      `https://` scheme and is at least as long as the shortest one the
      pattern admits; `ValidIffMatchesPattern` gives the exact set. */
  predicate IsValidRednoteUrl(u: string)
    ensures IsValidRednoteUrl(u) ==> SchemeLength(u).Some? && |u| >= MinUrlLength
  {
    match SchemeLength(u)
    case None => false
    case Some(a) => HostFromEnds(u, a); HostFrom(u, a)
  }

  /** A domain and path found from `k` take at least 13 more characters:
      the shorter domain, `/`, and one character of path. */
  lemma HostFromEnds(u: string, k: nat)
    ensures HostFrom(u, k) ==> k + |ShortLinkDomain| + 2 <= |u|
  {
    if HostFrom(u, k) {
      var k' := HostWitness(u, k);
    }
  }

  /** `HostFrom` holds exactly when such a `k'` exists: the witness it finds. */
  lemma {:induction false} HostWitness(u: string, k: nat) returns (k': nat)
    requires HostFrom(u, k)
    ensures k <= k' <= |u| && NoneAre(u, k, k', '\n') && DomainPathAt(u, k')
    decreases |u| - k
  {
    if DomainPathAt(u, k) {
      k' := k;
    } else {
      k' := HostWitness(u, k + 1);
    }
  }

  /** ... and any such `k'` makes `HostFrom` hold. */
  lemma {:induction false} HostFromWitness(u: string, k: nat, k': nat)
    requires k <= k' <= |u| && NoneAre(u, k, k', '\n') && DomainPathAt(u, k')
    ensures HostFrom(u, k)
    decreases k' - k
  {
    if k < k' {
      HostFromWitness(u, k + 1, k');
    }
  }

  /** A matching scheme fixes where the text after `://` begins. */
  lemma SchemeOfShape(u: string, scheme: string)
    requires |scheme| + 3 <= |u| && u[..|scheme|] == scheme && u[|scheme| .. |scheme| + 3] == "://"
    requires EqualsCI(scheme, "http") || EqualsCI(scheme, "https")
    ensures SchemeLength(u) == Some(|scheme| + 3)
  {
    assert forall k :: 0 <= k < |scheme| ==> u[k] == scheme[k];
    assert u[|scheme|] == ':';
    if EqualsCI(scheme, "http") {
      assert u[4] == ':';
      assert EqualsCI(u[0..7], "http://");
      if |u| >= 8 {
        assert u[0..8][4] == ':';
      }
    } else {
      assert EqualsCI(u[0..8], "https://");
    }
  }

  /** The scheme `SchemeLength` finds is one the pattern accepts. */
  lemma ShapeOfScheme(u: string)
    requires SchemeLength(u).Some?
    ensures var a := SchemeLength(u).value;
            && 3 <= a && u[a - 3 .. a] == "://"
            && (EqualsCI(u[..a - 3], "http") || EqualsCI(u[..a - 3], "https"))
  {
    var a := SchemeLength(u).value;
    assert forall k :: 0 <= k < a ==> u[0..a][k] == u[k];
    assert forall k :: 0 <= k < a - 3 ==> u[..a - 3][k] == u[k];
  }

  /** Cutting `u` at the pattern's five boundaries gives `u` back. */
  lemma Reassemble(u: string, a: nat, k: nat, m: nat)
    requires 3 <= a <= k <= m < |u|
    requires u[a - 3 .. a] == "://" && u[m] == '/'
    ensures u == u[..a - 3] + "://" + u[a..k] + u[k..m] + "/" + u[m + 1..]
  {
    assert u == u[..a - 3] + u[a - 3 .. a] + u[a..k] + u[k..m] + u[m..m + 1] + u[m + 1..];
  }

  /** A domain and path at `k` give the last three parts of a shape. */
  lemma DomainPathParts(u: string, k: nat) returns (domain: string)
    requires DomainPathAt(u, k)
    ensures k + |domain| < |u| && domain == u[k .. k + |domain|]
    ensures EqualsCI(domain, ShortLinkDomain) || EqualsCI(domain, MainDomain)
    ensures u[k + |domain|] == '/'
    ensures var path := u[k + |domain| + 1 ..];
            |path| > 0 && forall x :: 0 <= x < |path| ==> !IsWhitespace(path[x])
  {
    if StartsWithCI(u, k, ShortLinkDomain) && PathAt(u, k + |ShortLinkDomain|) {
      domain := u[k .. k + |ShortLinkDomain|];
    } else {
      domain := u[k .. k + |MainDomain|];
    }
    var m := k + |domain|;
    var path := u[m + 1..];
    assert forall x :: 0 <= x < |path| ==> path[x] == u[m + 1 + x];
  }

  /** Every URL the checker accepts matches the pattern. */
  lemma {:induction false} ValidImpliesPattern(u: string)
    requires IsValidRednoteUrl(u)
    ensures MatchesUrlPattern(u)
  {
    var a := SchemeLength(u).value;
    ShapeOfScheme(u);
    var k := HostWitness(u, a);
    var domain := DomainPathParts(u, k);
    var m := k + |domain|;
    var scheme, prefix, path := u[..a - 3], u[a..k], u[m + 1..];
    RunHasNoNewline(u, a, k);
    Reassemble(u, a, k, m);
    assert IsUrlShape(u, scheme, prefix, domain, path);
  }

  /** A stretch of `u` without line feeds, cut out, holds none. */
  lemma RunHasNoNewline(u: string, a: nat, k: nat)
    requires a <= k <= |u| && NoneAre(u, a, k, '\n')
    ensures '\n' !in u[a..k]
  {
    forall x | 0 <= x < k - a ensures u[a..k][x] != '\n' {
      assert u[a..k][x] == u[a + x];
    }
  }

  /** The five parts of a shape sit at consecutive offsets of `u`. */
  lemma ShapeOffsets(u: string, scheme: string, prefix: string, domain: string, path: string)
    requires u == scheme + "://" + prefix + domain + "/" + path
    ensures var a := |scheme| + 3;
            var k := a + |prefix|;
            var m := k + |domain|;
            && m < |u|
            && u[..|scheme|] == scheme && u[|scheme| .. a] == "://"
            && u[a..k] == prefix && u[k..m] == domain && u[m] == '/' && u[m + 1..] == path
  {
  }

  /** Every URL the pattern matches is accepted by the checker. */
  lemma PatternImpliesValid(u: string)
    requires MatchesUrlPattern(u)
    ensures IsValidRednoteUrl(u)
  {
    var scheme, prefix, domain, path :| IsUrlShape(u, scheme, prefix, domain, path);
    var a := |scheme| + 3;
    var k := a + |prefix|;
    ShapeOffsets(u, scheme, prefix, domain, path);
    SchemeOfShape(u, scheme);
    PrefixHasNoNewline(u, a, prefix);
    DomainPathOfShape(u, k, domain, path);
    HostFromWitness(u, a, k);
  }

  /** A prefix without line feeds at `a` leaves none in `u[a .. a + |prefix|]`. */
  lemma PrefixHasNoNewline(u: string, a: nat, prefix: string)
    requires a + |prefix| <= |u| && u[a .. a + |prefix|] == prefix && '\n' !in prefix
    ensures NoneAre(u, a, a + |prefix|, '\n')
  {
    forall x | a <= x < a + |prefix| ensures u[x] != '\n' {
      assert u[x] == prefix[x - a];
    }
  }

  /** A domain, `/` and a whitespace-free path ending `u` give a domain and
      path at `k`. */
  lemma DomainPathOfShape(u: string, k: nat, domain: string, path: string)
    requires k + |domain| < |u| && u[k .. k + |domain|] == domain
    requires u[k + |domain|] == '/' && u[k + |domain| + 1 ..] == path
    requires EqualsCI(domain, ShortLinkDomain) || EqualsCI(domain, MainDomain)
    requires |path| > 0 && forall x :: 0 <= x < |path| ==> !IsWhitespace(path[x])
    ensures DomainPathAt(u, k)
  {
    var m := k + |domain|;
    forall x | m + 1 <= x < |u| ensures !IsWhitespace(u[x]) {
      assert u[x] == path[x - m - 1];
    }
    assert PathAt(u, m);
  }

  /** The checker accepts exactly the URLs the pattern matches. */
  lemma ValidIffMatchesPattern(u: string)
    ensures IsValidRednoteUrl(u) <==> MatchesUrlPattern(u)
  {
    if IsValidRednoteUrl(u) {
      ValidImpliesPattern(u);
    }
    if MatchesUrlPattern(u) {
      PatternImpliesValid(u);
    }
  }

  /** A domain must be followed by `/` and at least one more character: with
      no `/` before the last character from `k + 11` on, no domain and path
      start at or after `k`. */
  lemma {:induction false} NoPathNoHost(u: string, k: nat)
    requires forall m :: k + |ShortLinkDomain| <= m < |u| - 1 ==> u[m] != '/'
    ensures !HostFrom(u, k)
    decreases |u| - k
  {
    if k < |u| {
      NoPathNoHost(u, k + 1);
    }
  }

  /** A URL assembled from parts of the right kinds has the pattern's shape. */
  lemma ShapeFromParts(u: string, scheme: string, prefix: string, domain: string, path: string)
    requires u == scheme + "://" + prefix + domain + "/" + path
    requires EqualsCI(scheme, "http") || EqualsCI(scheme, "https")
    requires '\n' !in prefix
    requires EqualsCI(domain, ShortLinkDomain) || EqualsCI(domain, MainDomain)
    requires |path| > 0 && forall k :: 0 <= k < |path| ==> !IsWhitespace(path[k])
    ensures IsValidRednoteUrl(u)
  {
    assert IsUrlShape(u, scheme, prefix, domain, path);
    PatternImpliesValid(u);
  }

  /** The main domain with a one-character path. */
  lemma AcceptsMainDomain()
    ensures IsValidRednoteUrl("https://xiaohongshu.com/x")
  {
    var u := "https://xiaohongshu.com/x";
    assert u == "https" + "://" + "" + "xiaohongshu.com" + "/" + "x";
    ShapeFromParts(u, "https", "", "xiaohongshu.com", "x");
  }

  /** A subdomain of the short-link domain. */
  lemma AcceptsSubdomain()
    ensures IsValidRednoteUrl("https://www.xhslink.com/y")
  {
    var u := "https://www.xhslink.com/y";
    assert u == "https" + "://" + "www." + "xhslink.com" + "/" + "y";
    assert '\n' !in "www.";
    ShapeFromParts(u, "https", "www.", "xhslink.com", "y");
  }

  /** Scheme and domain in upper case. */
  lemma AcceptsUpperCase()
    ensures IsValidRednoteUrl("HTTP://XHSLINK.COM/abc")
  {
    var u := "HTTP://XHSLINK.COM/abc";
    assert u == "HTTP" + "://" + "" + "XHSLINK.COM" + "/" + "abc";
    UpperCaseParts();
    ShapeFromParts(u, "HTTP", "", "XHSLINK.COM", "abc");
  }

  /** Upper-case scheme and domain fold to the pattern's letters. */
  lemma UpperCaseParts()
    ensures EqualsCI("HTTP", "http") && EqualsCI("XHSLINK.COM", ShortLinkDomain)
  {
    assert EqualsCI("HTTP", "http");
  }

  /** Another host whose path starts with an allowed domain: the prefix group admits it. */
  lemma AcceptsDomainInPath()
    ensures IsValidRednoteUrl("https://evil.example/xiaohongshu.com/a")
  {
    var u := "https://evil.example/xiaohongshu.com/a";
    DomainInPathParts();
    assert '\n' !in "evil.example/";
    assert EqualsCI("xiaohongshu.com", MainDomain);
    ShapeFromParts(u, "https", "evil.example/", "xiaohongshu.com", "a");
  }

  /** The URL with a domain in its path, cut into the pattern's parts. */
  lemma DomainInPathParts()
    ensures "https://evil.example/xiaohongshu.com/a" == "https" + "://" + "evil.example/" + "xiaohongshu.com" + "/" + "a"
  {
  }

  /** URLs the gate rejects: a foreign scheme, and an empty path. */
  lemma RejectedExamples()
    ensures !IsValidRednoteUrl("ftp://xiaohongshu.com/abc")
    ensures !IsValidRednoteUrl("https://xiaohongshu.com/")
  {
    var ftp := "ftp://xiaohongshu.com/abc";
    assert ftp[0..8][0] == 'f' && ftp[0..7][0] == 'f';
    var bare := "https://xiaohongshu.com/";
    assert EqualsCI(bare[0..8], "https://");
    NoPathNoHost(bare, 8);
  }
}
